=== FILE: README.md ===
# Mandel — a verified model of the renderer's core

Mandel draws the Mandelbrot and Julia sets. The command line fills an option
store, and the store is validated once. A pool of worker threads then claims
the rows of the surface one at a time under a mutex, runs the escape-time
kernel on every pixel of the row, and writes the packed colours into the row's
cells. The last worker to find the rows exhausted wakes the caller. Around the
engine, the front end has three modes:

- photo mode renders once and saves a picture;
- capture mode renders, saves and zooms a given number of times;
- window mode reacts to keys that pan, zoom, change the iteration cap, nudge
  the init value or switch between the two sets.

This project models that core in Dafny, one module per concern:

| module | models |
|---|---|
| `Types` | the `dimension`, `bounds` and `complex` records, with the width, height and centre of a bounds record |
| `CArith` | C's double-to-int truncation and C's signed remainder |
| `Decimal` | the `%i` conversion used in picture names |
| `Options` | the option store: defaults, minimums, a getter/setter pair per field, and the ordered validator |
| `Args` | the command-line token loop, the `read_*` helpers and `check_index` |
| `Colors` | the 4096-entry hue walk, the HSV sector index and the colour-index clamp |
| `Kernel` | the escape loop, the Julia/Mandelbrot seed choice and the pixel value |
| `Framebuffer` | row and pixel offsets in a surface whose pitch is in bytes |
| `RowClaim` | the row-claim and pass-completion protocol, as a transition system with one atomic step per critical section |
| `Engine` | a whole pass: sample points, rows and the image, and the surface a completed pass leaves |
| `View` | the window's view state, the key transforms, the `treatKeyDown` refresh rule and the event loop |
| `Session` | mode selection and the photo/capture render-and-save sequence with its file names |

Modelling choices:

- **Doubles are reals.** The C casts `(int)x` and `%` are written out: `CArith.TruncToInt` truncates toward zero, and `CArith.CRem` takes the sign of the dividend.
- **External routines are parameters.** `atoi`/`atof` are the fields of an `Args.Converters` value. The smoothing logarithm is the `Engine.Smoothing` function. `SDL_MapRGB` is represented by the colour table, which is a sequence of packed pixels.
- **Threads are not modelled one by one.** `RowClaim.PassState` counts permits, idle workers, the rows being computed and the rows written. A fast worker can therefore consume two `working` permits of the same pass; the model allows that, as the C code does.
- **`options_check` only reads the store.** `Options.Check` is a pure function and cannot modify the store.

The `read_*` helpers and `check_index` treat `param` as the flag, so their comments (src/args.c:9, src/args.c:18) have a missing value name the flag. For `-c`'s frame count, though, the code passes the index of the speed token as `param`, because `i` has already been advanced (src/args.c:109-111). The error then names the speed token. The model follows the code; see `Args.MissingFrameCountNamesSpeed`.

The proof that parsing can restore any store (`Args.EncodeRoundTrip`) uses a witness: `Args.Encode`, an encoder from a store to a command line. The program has no encoder. `Args.EncodeValues`, `Args.EncodedGeometryAt`, `Args.EncodedLimitsAt` and `Args.CaptureTail` only describe that witness, and `Args.InvertsSatisfiable` builds converters for it. They are proof steps, not models of the program, so they have no row in the table below.

## Model

| member | source | states |
|---|---|---|
| CArith.TruncToInt | src/mandelbrot.c:131 | `(int)x` is the integer between 0 and x that is less than one away from x, so it truncates toward zero for both signs |
| CArith.CRem | src/gfx.c:203 | `a % b` satisfies a = b·quot + r, with `r` taking the sign of `a` and |r| < |b| |
| Decimal.IntToDecimal | src/gfx.c:73 | the `%i` text of an int is non-empty and starts with a digit exactly when the int is non-negative |
| Decimal.NatToDecimal | src/gfx.c:73 | the text of a non-negative int is all digits, with no leading zero unless it is "0" |
| Decimal.DecimalRoundTrip | src/gfx.c:73 | reading the decimal text back gives the number |
| Decimal.ReadIntRoundTrip | src/gfx.c:73 | reading the `%i` text of any int, with its minus sign, gives the int back |
| Decimal.IntToDecimalInjective | src/gfx.c:73 | distinct ints have distinct texts |
| Options.Get | src/options.c:117-175 | each getter returns a value of its field's type |
| Options.Set | src/options.c:54-112 | a setter followed by its getter returns the value set, and every other field reads as before |
| Options.SetGetIdentity | src/options.c:54-175 | setting a field to the value its getter returns leaves the store unchanged |
| Options.GettersDetermineStore | src/options.c:117-175 | two stores whose twelve getters agree are equal, so the getters observe the whole store |
| Options.Check | src/options.c:19-49 | the validator fails iff one of the nine conditions holds (width < 128, height < 128, xmin ≥ xmax, ymin ≥ ymax, threads < 1, cap < 4, zoom speed ≤ 0, frames < 1, photo and capture both on); the reported error is a condition that holds, and no earlier-ranked condition holds |
| Options.CheckedModesExclusive | src/options.c:46-48 | after a successful check, photo mode and capture mode are not both on |
| Options.DefaultsValid | src/options.h:6-21 | the defaults meet every minimum: 800×600 ≥ 128×128, ordered bounds, 2 ≥ 1 threads, cap 32 ≥ 4, speed 100 > 0, 150 ≥ 1 frames, both modes off; so the default store passes the validator |
| Args.ReadString | src/args.c:10-23 | the read succeeds iff the argument index is inside the vector, then returns that argument; otherwise the error names the parameter token |
| Args.ReadInteger | src/args.c:34-39 | as `ReadString`, with the value converted by `atoi` |
| Args.ReadDouble | src/args.c:26-31 | as `ReadString`, with the value converted by `atof` |
| Args.ReadDimension | src/args.c:42-50 | `-d` succeeds iff two values follow, and sets width from the first and height from the second; otherwise it names `-d` |
| Args.ReadInit | src/args.c:53-61 | `-i` succeeds iff two values follow, and sets the real part, then the imaginary part |
| Args.ReadBounds | src/args.c:64-76 | `-b` succeeds iff four values follow, and sets xmin, xmax, ymin and ymax in that order |
| Args.ReadCapture | src/args.c:107-112 | `-c` sets capture mode to 1, the speed from the next token and the frame count from the one after, and changes no other field; if the frame count is missing, the error names the speed token |
| Args.Arity | src/args.c:83-112 | the number of values after a flag: 4 exactly for `-b`, none for `-f`, `-j` and `-p`, at most 4, and non-zero only for flags |
| Args.Step | src/args.c:82-118 | one loop turn: an unrecognised token aborts with its name; a flag succeeds iff its fixed number of values is present, advances past them, writes only its own fields and never clears a mode flag |
| Args.ReadValueFlag | src/args.c:83-106 | a flag carrying values succeeds iff all of them are present, advances past them, writes only its own field and leaves the modes alone; otherwise the error names the flag |
| Args.ReadModeFlag | src/args.c:92-112 | `-f`, `-j` and `-p` always succeed and advance by one; `-c` succeeds iff two values follow; all of them only raise mode flags and write only their own fields |
| Args.ParseFrom | src/args.c:82-118 | the loop never reports an invalid-options error and returns the store unchanged once the index reaches the end of the vector |
| Args.ArgsRead | src/args.c:78-120 | the validator runs exactly once, after the whole vector has been consumed without failure; a successful read yields a store that passes it |
| Args.ModeFlagsOnlyRise | src/args.c:92-103 | across a whole parse, `-f`, `-j`, `-p` and `-c` can only set their option to 1, never back to 0 |
| Args.StepPrefix | src/args.c:82-118 | a successful turn reads only the tokens before the index it advances to, so appending arguments does not change it |
| Args.ParseAppend | src/args.c:82-118 | parsing a + b is parsing a and then continuing on b from the store it produced |
| Args.RepeatedFlagOverwrites | src/args.c:94-96 | a repeated `-t` overwrites the earlier thread count |
| Args.MissingFrameCountNamesSpeed | src/args.c:107-112 | `mandel -c 2.0` fails naming "2.0", and `mandel -c` fails naming "-c" |
| Args.UnknownTokenAborts | src/args.c:113-116 | an unrecognised first token aborts the whole read with that token's name |
| Args.ParseUnfold | src/args.c:82-118 | a successful turn moves the loop to the index and store it returns |
| Args.StepValued | src/args.c:83-106 | each valued flag advances by 1 + arity and stores its values positionally |
| Args.GeometryRoundTrip | src/args.c:83-91 | reading the encoded `-d`, `-b` and `-i` sets exactly the encoded dimension, bounds and init |
| Args.LimitsRoundTrip | src/args.c:94-106 | reading the encoded `-t`, `-n` and `--picture-name` sets exactly the encoded thread count, cap and picture name |
| Args.ValuesRoundTrip | src/args.c:82-106 | parsing the encoded value flags sets exactly the encoded dimension, bounds, init, threads, cap and picture name |
| Args.StepMode | src/args.c:92-112 | `-f`, `-j` and `-p` set their option to 1 and advance by one; `-c` sets mode, speed and frames and advances by three |
| Args.ModeChunk | src/args.c:92-103 | one optional mode flag in the loop has the same effect as setting its option to 1 |
| Args.CaptureChunk | src/args.c:107-112 | an optional trailing `-c speed frames` ends the parse with capture mode, speed and frames set |
| Args.ModesRoundTrip | src/args.c:92-112 | parsing the encoded mode flags restores every mode field of the store |
| Args.EncodeRoundTrip | src/args.c:78-120 | for converters that read back the formatted reals of that store (and every `%i` text), every store with 0/1 mode flags has a command line that reads back to exactly it; the read then succeeds iff the store passes the validator |
| Args.EveryEncodableStoreIsReachable | src/args.c:78-120 | such converters exist for every store, so every store with 0/1 mode flags is the result of reading some command line, and that read succeeds iff the store passes the validator |
| Colors.NextHue | src/mandelbrot.c:86-89 | one step advances the hue by sweep/4096, and restarts at 0 exactly when it would pass 360, so the result never exceeds 360 |
| Colors.BuildHues | src/mandelbrot.c:83-93 | the table has 4096 hues, entry i being the start advanced i + 1 times by sweep/4096 with the reset above 360; from non-negative start and sweep every hue lies in [0, 360]; with sweep 0 and start ≤ 360 all hues equal the start |
| Colors.HueOnCircle | src/mandelbrot.c:86-89 | from a non-negative start and sweep every hue of the walk lies in [0, 360] |
| Colors.HueStill | src/mandelbrot.c:86-89 | with a zero sweep and a start ≤ 360 every hue equals the start |
| Colors.FirstTableSweepsOnce | src/mandelbrot.c:83-93 | for the first table, built when a surface is first rendered, (start 0, sweep 360) entry i is (i + 1)·360/4096, so the reset never fires |
| Colors.Sector | src/mandelbrot.c:60 | `(int)(h/60) % 6` is in 0..5 for h ≥ 0; on [0, 360) it is the 60° slice holding h, and 360 maps to sector 0 |
| Colors.Clamp | src/mandelbrot.c:129-130 | the clamped value lies in [0, 1]: a value inside the interval is kept, a value below 0 becomes 0 and a value above 1 becomes 1 |
| Colors.ColorIndex | src/mandelbrot.c:129-131 | the index is always in [0, 4096); values ≥ 1 (including 1 itself) and ≤ 0 give entry 0; on [0, 1) the index is the 1/4096 slice holding the value |
| Colors.ColorIndexMonotone | src/mandelbrot.c:129-131 | on [0, 1) a larger smoothed value never picks an earlier entry |
| Kernel.EscapeLoop | src/mandelbrot.c:116-123 | the do-while body runs at least once and, from a counter below the cap, at most cap − counter times; the counter ends at most at the cap |
| Kernel.EscapeLoopFollowsOrbit | src/mandelbrot.c:116-123 | the loop's final z is the orbit iterate after its number of runs; every earlier iterate has |z|² ≤ 4; the last one exceeds 4 iff the loop stopped on the escape test |
| Kernel.InteriorIffBounded | src/mandelbrot.c:116-126 | for cap ≥ 1 the body runs 1..cap times with the counter in [0, cap]; the counter reaches the cap iff every iterate 1..cap has |z|² ≤ 4 |
| Kernel.EscapeIsFirst | src/mandelbrot.c:116-123 | an escaped pixel's counter + 1 is the first iterate with |z|² > 4 |
| Kernel.FirstIterateEscapes | src/mandelbrot.c:116-123 | if the first iterate already has |z|² > 4, the loop stops with counter 0 after one run |
| Kernel.FarPointEscapesAtOnce | src/mandelbrot.c:116-123 | from z = 0 the point c = 10 + 10i escapes with counter 0 |
| Kernel.OriginOrbitFixed | src/mandelbrot.c:118-122 | with z0 = 0 and c = 0 every iterate is 0 |
| Kernel.Iter | src/mandelbrot.c:118-121 | one iteration computes z² + c; with c = 0 the new \|z\|² is the square of the old one |
| Kernel.PixelEscape | src/mandelbrot.c:108-123 | a pixel's loop runs from its mode's seeds: the last iterate lies on that orbit, and with a cap of at least 1 the counter reaches the cap exactly when none of the first cap iterates left radius 2 |
| Kernel.SeedsFor | src/mandelbrot.c:108-114 | Julia mode iterates from the sample point with c = init; Mandelbrot mode starts at init with c = the sample point |
| Kernel.JuliaMandelbrotSwap | src/mandelbrot.c:108-114 | a Julia pixel with init a at point p is the Mandelbrot pixel with init p at point a |
| Kernel.Shade | src/mandelbrot.c:125-131 | an interior pixel (counter = cap) is 0; any other takes the table entry at the clamped colour index |
| Kernel.OriginInterior | src/mandelbrot.c:108-126 | in Mandelbrot mode with init 0, sample point 0 is interior and its pixel is 0 |
| Framebuffer.CellInSurface | src/mandelbrot.c:106-133 | when w ≤ pitch/4, cell y·(pitch/4) + x of every pixel lies inside the h·(pitch/4)-cell surface |
| Framebuffer.CellsDistinct | src/mandelbrot.c:106-133 | when w ≤ pitch/4, distinct pixels have distinct cells, so rows are disjoint |
| Framebuffer.WriteRow | src/mandelbrot.c:106-133 | writing row y sets exactly the cells y·stride .. y·stride + w − 1 and leaves every other cell alone |
| Framebuffer.ApplyRows | src/mandelbrot.c:180 | writing a sequence of rows keeps the surface size |
| Framebuffer.ApplyRowsPaints | src/mandelbrot.c:106-180 | after rows are written in any order, each cell of a written row holds the image's pixel and every other cell keeps its value |
| Framebuffer.RowOrderIrrelevant | src/mandelbrot.c:165-180 | two write orders covering the same rows leave the same surface |
| Framebuffer.Decompose | src/mandelbrot.c:106 | every cell index of the surface splits into a row and an offset inside the row |
| RowClaim.RowsBelowOnce | src/mandelbrot.c:165-180 | the reference multiset of rows holds each row in [0, n) once and nothing else |
| RowClaim.Init | src/mandelbrot.c:189-206 | the state after `mandelbrot_init` is outside any pass, and it meets the protocol invariant exactly when there is at least one worker |
| RowClaim.Next | src/mandelbrot.c:160-249 | each actor blocks exactly when the C code would: render while a pass is running, a worker with no `working` permit, a lock with no idle worker, a finish of a row that is not being computed, a return with no `waiting` post; no step changes the worker count, and only render changes the height |
| RowClaim.Inv | src/mandelbrot.c:160-249 | no ensures: the protocol invariant itself (rows [0, nextLine) claimed once each, claimed = written + computing, permits and workers accounted for, `waiting` posted once at completion); `RowClaim.NextPreservesInv` proves every step keeps it |
| RowClaim.InitInv | src/mandelbrot.c:189-206 | the state after `mandelbrot_init` with at least one worker satisfies the protocol invariant |
| RowClaim.RenderKeepsInv | src/mandelbrot.c:241-246 | a render start (reset both counters, post one permit per worker) keeps the invariant |
| RowClaim.LockKeepsInv | src/mandelbrot.c:165-179 | a claim-or-exhaust critical section keeps the invariant |
| RowClaim.FinishRowKeepsInv | src/mandelbrot.c:180 | finishing a row keeps the invariant |
| RowClaim.NextPreservesInv | src/mandelbrot.c:160-249 | every enabled atomic step keeps the invariant |
| RowClaim.RunKeepsInv | src/mandelbrot.c:160-249 | every run of steps keeps the invariant |
| RowClaim.ClaimedExactlyOnce | src/mandelbrot.c:165-180 | on every reachable state 0 ≤ nextLine ≤ h; the rows claimed in the pass are exactly [0, nextLine), each once; the sentinel h is never claimed; finished_jobs ≤ nbThreads |
| RowClaim.LockStep | src/mandelbrot.c:166-178 | below the sentinel a lock claims an unclaimed row and advances nextLine by one; at the sentinel it bumps finished_jobs, and it posts `waiting` iff that makes finished_jobs equal nbThreads |
| RowClaim.PassComplete | src/mandelbrot.c:169-249 | once finished_jobs = nbThreads, all permits are used, no row is in progress, `waiting` has been posted exactly once, and the rows written are each row of [0, h) once |
| RowClaim.ReturnOnlyWhenComplete | src/mandelbrot.c:249 | the caller returns from render only after the last exhaustion; every row has then been written exactly once |
| RowClaim.CanProgress | src/mandelbrot.c:160-249 | during a pass some step is always enabled (no deadlock with ≥ 1 worker), and returning is enabled exactly when all workers have finished |
| RowClaim.StepsDecreaseWork | src/mandelbrot.c:160-249 | every step of a pass lowers a non-negative measure, so each pass terminates |
| RowClaim.PassStartWork | src/mandelbrot.c:241-246 | a pass starts with measure 2·nbThreads + 2·h + 1, so it takes at most that many steps |
| RowClaim.ZeroThreadsDeadlock | src/mandelbrot.c:245-249 | with zero workers, nothing can follow a render start: `waiting` is never posted |
| Engine.SamplePoint | src/mandelbrot.c:105-124 | for ordered bounds, pixel (x, y) of a w×h surface samples a point inside the bounds |
| Engine.SampleSteps | src/mandelbrot.c:105-124 | column 0 samples at xmin, and each pixel to the right adds one xIncr = (xmax − xmin)/w to the real part; the imaginary part does not depend on x, is ymin on row 0 and grows by yIncr = (ymax − ymin)/h per row |
| Engine.Pixel | src/mandelbrot.c:105-131 | a pixel is black when its sample point reaches the cap, and otherwise the colour table entry of its smoothed value |
| Engine.RowPixels | src/mandelbrot.c:100-135 | a computed row has w pixels, each the shaded escape of its sample point, and 0 where the point is interior |
| Engine.Image | src/mandelbrot.c:100-135 | the image has h rows, row y being the row computed for y |
| Engine.InOrder | src/mandelbrot.c:241 | the single-worker order visits rows 0..h − 1 in turn |
| Engine.AllRows | src/mandelbrot.c:167 | the rows of a pass are exactly [0, h) |
| Engine.WrittenCoversRows | src/mandelbrot.c:165-249 | when render may return, every row written is in [0, h) and every row of [0, h) was written |
| Engine.CompletedPassIsDeterministic | src/mandelbrot.c:160-249 | whatever the pool size and scheduling, a completed pass leaves the surface that one worker writing rows 0..h − 1 in order would |
| Engine.CompletedPassPaintsImage | src/mandelbrot.c:160-249 | after a completed pass every cell of every row holds the image pixel; cells right of the width keep their value |
| Engine.CompletedPassPaintsAll | src/mandelbrot.c:100-249 | the same for the image the kernel computes |
| View.Reset | src/gfx.c:82-88 | reset copies bounds, init, cap and mode from the option store |
| View.Up | src/gfx.c:91-96 | up keeps both extents and the x bounds, and shifts y down by a twentieth of the height |
| View.Down | src/gfx.c:97-102 | down keeps both extents and the x bounds, and shifts y up by a twentieth of the height |
| View.Left | src/gfx.c:103-108 | left keeps both extents and the y bounds, and shifts x down by a twentieth of the width |
| View.Right | src/gfx.c:109-114 | right keeps both extents and the y bounds, and shifts x up by a twentieth of the width |
| View.PansCancel | src/gfx.c:91-114 | up/down and left/right undo each other in either order, and no pan changes whether the bounds are ordered |
| View.Zoom | src/gfx.c:117-127 | zooming by f keeps the centre and multiplies both extents by 1 − 1/f |
| View.Unzoom | src/gfx.c:128-136 | unzooming by f keeps the centre and multiplies both extents by 1 + 2/f |
| View.ZoomKeepsOrderIff | src/gfx.c:117-127 | on ordered bounds a zoom by f keeps them ordered iff f > 1 or f < 0 |
| View.UnzoomUndoesZoom | src/gfx.c:117-136 | unzooming by 2(f − 1) undoes a zoom by f |
| View.ZoomKeysCancel | src/gfx.c:186-189 | the `t` key (zoom 2) followed by `g` (unzoom 2) restores the bounds |
| View.SlowZoomSpeedInvertsBounds | src/options.c:40-42 | a capture zoom speed of 0.5 passes the validator, yet one zoom at that speed swaps the default bounds |
| View.IncrIt | src/gfx.c:139-142 | the cap times f, truncated: it never decreases a non-negative cap when f ≥ 1 |
| View.ReduceIt | src/gfx.c:143-149 | the cap becomes n/f truncated toward zero if and only if n/f reaches the minimum 4; otherwise the cap is kept, so a cap ≥ 4 stays ≥ 4 and, for f ≥ 1, never grows |
| View.IncrThenReduce | src/gfx.c:139-149 | `y` then `h` gives back an even cap and loses one from an odd cap ≥ 5 |
| View.Toggle | src/gfx.c:202-203 | the space key maps 0 to 1 and 1 to 0, and maps any non-negative value into {0, 1} |
| View.ToggleTwice | src/gfx.c:202-203 | pressing space twice is the identity on {0, 1} |
| View.TreatKeyDown | src/gfx.c:171-211 | every handled key except `p` ends with exactly one refresh, and `p` and unlisted keys with none; `f` recolours; each key changes only the view parameter it is about; `r` yields the store's view |
| View.PanKeysCancel | src/gfx.c:178-185 | the up/down and left/right key pairs restore the view |
| View.ZoomKeyPairCancel | src/gfx.c:186-189 | the `t` key followed by `g` restores the view |
| View.NudgeKeysCancel | src/gfx.c:194-201 | the u/j and i/k nudges of ±0.02 undo each other |
| View.OppositeKeysCancel | src/gfx.c:171-211 | up/down, left/right, t/g, u/j and i/k undo each other, and space twice restores a 0/1 mode |
| View.ResetForgetsHistory | src/gfx.c:174-175 | after `r` the view does not depend on the view it was pressed in |
| View.CapStaysAboveMinimum | src/gfx.c:139-193 | starting from validated options, no key brings the cap below 4 |
| View.MainLoop | src/gfx.c:238-255 | the event loop never lowers the render count, and without key presses it changes nothing |
| View.LoopStopsAtExit | src/gfx.c:245-249 | nothing after a quit event or the escape key has any effect |
| Session.FrameName | src/gfx.c:70-75 | a picture file name starts with the picture name and ends with ".bmp" |
| Session.FrameNamesDistinct | src/gfx.c:70-75 | two frame numbers never give the same file name |
| Session.ModeOf | src/gfx.c:268-285 | photo mode wins when on; capture mode applies only when photo mode is off |
| Session.ModeOrderIrrelevant | src/gfx.c:268-272 | for validated options, capture mode is chosen exactly when it is on |
| Session.ZoomN | src/gfx.c:277-283 | repeated zooms keep the centre; at a speed above 1 they keep ordered bounds ordered, and after at least one zoom both extents are strictly smaller than at the start |
| Session.ZoomStepShrinks | src/gfx.c:117-127 | one zoom at a speed above 1 keeps ordered bounds ordered and makes both extents strictly smaller |
| Session.PhotoEffects | src/gfx.c:268-271 | photo mode renders the store's view once and saves it as picture name + "0.bmp" |
| Session.Frame | src/gfx.c:277-283 | capture frame i renders the store's view with the same centre, init, cap and mode, zoomed strictly smaller when i > 0 at a speed above 1, and saves it as the picture name + i + ".bmp" |
| Session.Frames | src/gfx.c:277-284 | n capture frames produce 2n effects |
| Session.FramesAt | src/gfx.c:277-284 | effect 2i renders the initial view zoomed i times, and effect 2i + 1 saves it under frame number i |
| Session.FramesStep | src/gfx.c:281-283 | each frame renders and saves the current bounds, and the next frame's bounds are those zoomed once more |
| Session.CaptureEffects | src/gfx.c:272-284 | the capture loop produces exactly the reference frame sequence, nothing for a frame count below 1 |
| Session.WindowRenders | src/gfx.c:238-255 | the views the window renders after the first are one per refreshing key press, as many as the event loop counts |
| Session.Run | src/gfx.c:258-294 | a session performs the effects its mode calls for: photo renders and saves frame 0, capture performs the frame sequence, and the window only renders: first the store's view, then, in order, the view after each refreshing key press |
| Session.CaptureFilesDistinct | src/gfx.c:277-284 | every picture a capture saves goes to a file of its own |

## Left out

- Threads, the mutex and the semaphores are not modelled as such. Each critical section of `life_Of_Thread` is one atomic step, and the semaphores are counters. Thread creation in `mandelbrot_init` and `pthread_cancel` in `mandelbrot_close` are left out.
- The progress watcher thread, `gettimeofday` timing, the `display` switch and every `printf`, including `afficheParams`' reproduction line, are left out: they are output and timing only.
- SDL is not modelled: window and surface creation, `SDL_Flip`, `SDL_SaveBMP`, `SDL_MapRGB` and event delivery. A render is named by the view it draws, a save by its file name, and the colour table is a sequence of packed pixels.
- IEEE-754 rounding is not modelled; doubles are reals. As a result, some lemmas hold only over reals: `View.PansCancel`, `View.UnzoomUndoesZoom`, `View.NudgeKeysCancel` and `View.OppositeKeysCancel`. `Engine.SamplePoint` uses xmin + x·xIncr, whereas the C code adds `xIncr` once per pixel; the two agree over reals only.
- The HSV-to-RGB channel values, the logarithmic smoothing formula and the `rand()`-driven colours of `mandelbrot_changeColors` are not modelled: they are floating-point and randomness details. Only the sector index and the colour index are modelled; the smoothing is a function parameter.
- `atoi` and `atof` are not modelled; they are parameters of the parser.
- `Colors.BuildHues` models one build of the table. `render` rebuilds the table with the fixed arguments (0, 360) whenever the surface changes (src/mandelbrot.c:235-238); the model does not track the surface, so that rebuild is not modelled.
- `Args.ArgsRead`: a `-c` whose speed is read but whose frame count is missing is modelled as a plain failure. In the C code capture mode and the speed are set before `exit`, but the process ends, so nothing observes them.
- `View.IncrIt`: does not model `int` overflow of the truncated product, nor `nbMaxIt` wrapping around.
- `Session.FrameName`: does not model the 1024-byte name buffer of `saveBMP`, which overflows for very long picture names.
- `Session.FrameNamesDistinct`: two different picture names can still give the same file name (for example "a" with frame 11 and "a1" with frame 1). Within one run the picture name is fixed, so frames never collide.
- `RowClaim.InitInv`: the invariant needs at least one worker. A store with zero workers fails validation, and `RowClaim.ZeroThreadsDeadlock` shows that such a pass never completes.

=== FILE: args.dfy ===
/** The command-line reader: a token loop over the argument vector in which
    each recognised flag consumes a fixed number of following arguments and
    stores them in the option store, followed by one run of the validator. */
module Args {
  import opened Types
  import opened Results
  import opened Options
  import opened Decimal

  /** The C library conversions `atoi` and `atof`, left uninterpreted. */
  datatype Converters = Converters(atoi: string -> int, atof: string -> real)

  /** Why reading stopped: a flag lacking a value (named by the token the
      source reports), a token that is no flag, or a failed validation. */
  datatype ArgsError =
    | MissingParameter(param: string)
    | UnknownParameter(token: string)
    | InvalidOptions(reason: CheckError)

  /** Loop state after one flag: the index of the next token and the store. */
  datatype Progress = Progress(next: nat, opts: Options)

  predicate IsFlag(tok: string) {
    tok in {"-d", "-b", "-i", "-f", "-t", "-n", "-j", "-p", "--picture-name", "-c"}
  }

  /** How many arguments after the flag it consumes. */
  function Arity(tok: string): (n: nat)
    ensures n <= 4
    ensures n > 0 ==> IsFlag(tok)
    ensures n == 4 <==> tok == "-b"
    ensures tok in {"-f", "-j", "-p"} ==> n == 0
  {
    if tok in {"-d", "-i", "-c"} then 2
    else if tok == "-b" then 4
    else if tok in {"-t", "-n", "--picture-name"} then 1
    else 0
  }

  /** The fields of the store a flag writes. */
  function Writes(tok: string): set<Field> {
    if tok == "-d" then {DimensionField}
    else if tok == "-b" then {BoundsField}
    else if tok == "-i" then {InitField}
    else if tok == "-f" then {FullscreenField}
    else if tok == "-t" then {NbThreadsField}
    else if tok == "-n" then {NbMaxItField}
    else if tok == "-j" then {JuliaField}
    else if tok == "-p" then {PhotoModeField}
    else if tok == "--picture-name" then {PictureNameField}
    else if tok == "-c" then {CaptureModeField, CaptureZoomSpeedField, CaptureNbFramesField}
    else {}
  }

  /** Argument `argNum` as the value of the flag at `paramNum`; reading at or
      past the end of the vector is the missing-parameter failure, which
      names the token at `paramNum`. */
  function ReadString(argv: seq<string>, paramNum: nat, argNum: nat): (r: Result<string, ArgsError>)
    requires paramNum < |argv|
    ensures r.Ok? <==> argNum < |argv|
    ensures r.Ok? ==> r.value == argv[argNum]
    ensures r.Err? ==> r.error == MissingParameter(argv[paramNum])
  {
    if argNum >= |argv| then Err(MissingParameter(argv[paramNum])) else Ok(argv[argNum])
  }

  function ReadInteger(argv: seq<string>, paramNum: nat, argNum: nat, conv: Converters): (r: Result<int, ArgsError>)
    requires paramNum < |argv|
    ensures r.Ok? <==> argNum < |argv|
    ensures r.Ok? ==> r.value == conv.atoi(argv[argNum])
    ensures r.Err? ==> r.error == MissingParameter(argv[paramNum])
  {
    var s :- ReadString(argv, paramNum, argNum);
    Ok(conv.atoi(s))
  }

  function ReadDouble(argv: seq<string>, paramNum: nat, argNum: nat, conv: Converters): (r: Result<real, ArgsError>)
    requires paramNum < |argv|
    ensures r.Ok? <==> argNum < |argv|
    ensures r.Ok? ==> r.value == conv.atof(argv[argNum])
    ensures r.Err? ==> r.error == MissingParameter(argv[paramNum])
  {
    var s :- ReadString(argv, paramNum, argNum);
    Ok(conv.atof(s))
  }

  /** `-d`: width, then height. */
  function ReadDimension(argv: seq<string>, p: nat, o: Options, conv: Converters): (r: Result<Options, ArgsError>)
    requires p < |argv|
    ensures r.Ok? <==> p + 2 < |argv|
    ensures r.Ok? ==> r.value == Set(o, DimensionField,
                         DimensionValue(Dimension(conv.atoi(argv[p + 1]), conv.atoi(argv[p + 2]))))
    ensures r.Err? ==> r.error == MissingParameter(argv[p])
  {
    var w :- ReadInteger(argv, p, p + 1, conv);
    var h :- ReadInteger(argv, p, p + 2, conv);
    Ok(Set(o, DimensionField, DimensionValue(Dimension(w, h))))
  }

  /** `-i`: real part, then imaginary part. */
  function ReadInit(argv: seq<string>, p: nat, o: Options, conv: Converters): (r: Result<Options, ArgsError>)
    requires p < |argv|
    ensures r.Ok? <==> p + 2 < |argv|
    ensures r.Ok? ==> r.value == Set(o, InitField,
                         ComplexValue(Complex(conv.atof(argv[p + 1]), conv.atof(argv[p + 2]))))
    ensures r.Err? ==> r.error == MissingParameter(argv[p])
  {
    var re :- ReadDouble(argv, p, p + 1, conv);
    var im :- ReadDouble(argv, p, p + 2, conv);
    Ok(Set(o, InitField, ComplexValue(Complex(re, im))))
  }

  /** `-b`: xmin, xmax, ymin, ymax. */
  function ReadBounds(argv: seq<string>, p: nat, o: Options, conv: Converters): (r: Result<Options, ArgsError>)
    requires p < |argv|
    ensures r.Ok? <==> p + 4 < |argv|
    ensures r.Ok? ==> r.value == Set(o, BoundsField,
                         BoundsValue(Bounds(conv.atof(argv[p + 1]), conv.atof(argv[p + 2]),
                                            conv.atof(argv[p + 3]), conv.atof(argv[p + 4]))))
    ensures r.Err? ==> r.error == MissingParameter(argv[p])
  {
    var xmin :- ReadDouble(argv, p, p + 1, conv);
    var xmax :- ReadDouble(argv, p, p + 2, conv);
    var ymin :- ReadDouble(argv, p, p + 3, conv);
    var ymax :- ReadDouble(argv, p, p + 4, conv);
    Ok(Set(o, BoundsField, BoundsValue(Bounds(xmin, xmax, ymin, ymax))))
  }

  /** `-c`: capture mode on, then the zoom speed from the next argument and
      the frame count from the one after. The frame count is read on behalf
      of the zoom-speed token, so that is the name a missing count reports. */
  function ReadCapture(argv: seq<string>, i: nat, o: Options, conv: Converters): (r: Result<Options, ArgsError>)
    requires i < |argv|
    ensures r.Ok? <==> i + 2 < |argv|
    ensures r.Ok? ==> r.value.captureMode == 1
    ensures r.Ok? ==> r.value.captureZoomSpeed == conv.atof(argv[i + 1])
    ensures r.Ok? ==> r.value.captureNbFrames == conv.atoi(argv[i + 2])
    ensures r.Ok? ==> forall g :: g !in {CaptureModeField, CaptureZoomSpeedField, CaptureNbFramesField} ==>
                         Get(r.value, g) == Get(o, g)
    ensures r.Err? ==> r.error == MissingParameter(if i + 1 < |argv| then argv[i + 1] else argv[i])
  {
    var o1 := Set(o, CaptureModeField, IntValue(1));
    var speed :- ReadDouble(argv, i, i + 1, conv);
    var o2 := Set(o1, CaptureZoomSpeedField, RealValue(speed));
    var frames :- ReadInteger(argv, i + 1, i + 2, conv);
    Ok(Set(o2, CaptureNbFramesField, IntValue(frames)))
  }

  /** Each mode flag of `m` is either the one of `o` or switched on (1). */
  predicate ModesRiseFrom(o: Options, m: Options) {
    && (m.fullscreen == o.fullscreen || m.fullscreen == 1)
    && (m.julia == o.julia || m.julia == 1)
    && (m.photoMode == o.photoMode || m.photoMode == 1)
    && (m.captureMode == o.captureMode || m.captureMode == 1)
  }

  /** One turn of the token loop at index `i`. */
  function Step(argv: seq<string>, i: nat, o: Options, conv: Converters): (r: Result<Progress, ArgsError>)
    requires 1 <= i < |argv|
    ensures !IsFlag(argv[i]) <==> r == Err(UnknownParameter(argv[i]))
    ensures IsFlag(argv[i]) ==> (r.Ok? <==> i + Arity(argv[i]) < |argv|)
    ensures r.Ok? ==> r.value.next == i + 1 + Arity(argv[i]) <= |argv|
    ensures r.Ok? ==> forall g :: g !in Writes(argv[i]) ==> Get(r.value.opts, g) == Get(o, g)
    ensures r.Ok? ==> ModesRiseFrom(o, r.value.opts)
    ensures r.Err? && IsFlag(argv[i]) ==>
              r.error == MissingParameter(if argv[i] == "-c" && i + 1 < |argv| then argv[i + 1] else argv[i])
  {
    var tok := argv[i];
    if tok in {"-d", "-b", "-i", "-t", "-n", "--picture-name"} then ReadValueFlag(argv, i, o, conv)
    else if tok in {"-f", "-j", "-p", "-c"} then ReadModeFlag(argv, i, o, conv)
    else Err(UnknownParameter(tok))
  }

  /** A turn on a flag that carries values for one field. */
  function ReadValueFlag(argv: seq<string>, i: nat, o: Options, conv: Converters): (r: Result<Progress, ArgsError>)
    requires 1 <= i < |argv| && argv[i] in {"-d", "-b", "-i", "-t", "-n", "--picture-name"}
    ensures r.Ok? <==> i + Arity(argv[i]) < |argv|
    ensures r.Ok? ==> r.value.next == i + 1 + Arity(argv[i]) <= |argv|
    ensures r.Ok? ==> forall g :: g !in Writes(argv[i]) ==> Get(r.value.opts, g) == Get(o, g)
    ensures r.Ok? ==> r.value.opts.(dimension := o.dimension, bounds := o.bounds, init := o.init,
                        nbThreads := o.nbThreads, nbMaxIt := o.nbMaxIt, pictureName := o.pictureName) == o
    ensures r.Err? ==> r.error == MissingParameter(argv[i])
  {
    var tok := argv[i];
    if tok == "-d" then
      var o' :- ReadDimension(argv, i, o, conv);
      Ok(Progress(i + 3, o'))
    else if tok == "-b" then
      var o' :- ReadBounds(argv, i, o, conv);
      Ok(Progress(i + 5, o'))
    else if tok == "-i" then
      var o' :- ReadInit(argv, i, o, conv);
      Ok(Progress(i + 3, o'))
    else if tok == "-t" then
      var n :- ReadInteger(argv, i, i + 1, conv);
      Ok(Progress(i + 2, Set(o, NbThreadsField, IntValue(n))))
    else if tok == "-n" then
      var n :- ReadInteger(argv, i, i + 1, conv);
      Ok(Progress(i + 2, Set(o, NbMaxItField, IntValue(n))))
    else
      var s :- ReadString(argv, i, i + 1);
      Ok(Progress(i + 2, Set(o, PictureNameField, NameValue(s))))
  }

  /** A turn on a mode flag: `-f`, `-j` and `-p` switch their mode on,
      `-c` also reads the capture speed and frame count. */
  function ReadModeFlag(argv: seq<string>, i: nat, o: Options, conv: Converters): (r: Result<Progress, ArgsError>)
    requires 1 <= i < |argv| && argv[i] in {"-f", "-j", "-p", "-c"}
    ensures r.Ok? <==> i + Arity(argv[i]) < |argv|
    ensures r.Ok? ==> r.value.next == i + 1 + Arity(argv[i]) <= |argv|
    ensures r.Ok? ==> forall g :: g !in Writes(argv[i]) ==> Get(r.value.opts, g) == Get(o, g)
    ensures r.Ok? ==> ModesRiseFrom(o, r.value.opts)
    ensures r.Err? ==> r.error == MissingParameter(if i + 1 < |argv| then argv[i + 1] else argv[i])
  {
    var tok := argv[i];
    if tok == "-f" then
      Ok(Progress(i + 1, Set(o, FullscreenField, IntValue(1))))
    else if tok == "-j" then
      Ok(Progress(i + 1, Set(o, JuliaField, IntValue(1))))
    else if tok == "-p" then
      Ok(Progress(i + 1, Set(o, PhotoModeField, IntValue(1))))
    else
      var o' :- ReadCapture(argv, i, o, conv);
      Ok(Progress(i + 3, o'))
  }

  /** The token loop from index `i` to the end of the vector. It never fails
      with a validation error: the validator is not part of the loop. */
  function ParseFrom(argv: seq<string>, i: nat, o: Options, conv: Converters): (r: Result<Options, ArgsError>)
    requires 1 <= i
    ensures r.Err? ==> !r.error.InvalidOptions?
    ensures i >= |argv| ==> r == Ok(o)
    decreases |argv| - i
  {
    if i >= |argv| then Ok(o)
    else
      var p :- Step(argv, i, o, conv);
      ParseFrom(argv, p.next, p.opts, conv)
  }

  /** The whole reader: the loop starts after the program name on the
      default store, and the validator runs once, on the store the complete
      loop produced, only if the loop did not fail. */
  function ArgsRead(argv: seq<string>, conv: Converters): (r: Result<Options, ArgsError>)
    ensures r.Ok? ==> Check(r.value) == Pass
    ensures ParseFrom(argv, 1, Defaults, conv).Err? ==> r == ParseFrom(argv, 1, Defaults, conv)
    ensures ParseFrom(argv, 1, Defaults, conv).Ok? ==>
              var o := ParseFrom(argv, 1, Defaults, conv).value;
              r == (if Check(o).Pass? then Ok(o) else Err(InvalidOptions(Check(o).error)))
    ensures r.Err? && r.error.InvalidOptions? ==> ParseFrom(argv, 1, Defaults, conv).Ok?
  {
    var o :- ParseFrom(argv, 1, Defaults, conv);
    match Check(o)
    case Pass => Ok(o)
    case Fail(e) => Err(InvalidOptions(e))
  }

  /** `-f`, `-j`, `-p` and `-c` only ever switch their mode to 1: after a
      successful loop each mode flag is either untouched or 1. */
  lemma {:induction false} ModeFlagsOnlyRise(argv: seq<string>, i: nat, o: Options, conv: Converters)
    requires 1 <= i
    requires ParseFrom(argv, i, o, conv).Ok?
    ensures ModesRiseFrom(o, ParseFrom(argv, i, o, conv).value)
    decreases |argv| - i
  {
    if i < |argv| {
      var p := Step(argv, i, o, conv).value;
      ModeFlagsOnlyRise(argv, p.next, p.opts, conv);
    }
  }

  /** A turn of the loop that succeeds on a vector reads nothing past its
      end, so it does the same on any extension of the vector. */
  lemma StepPrefix(a: seq<string>, b: seq<string>, i: nat, o: Options, conv: Converters)
    requires 1 <= i < |a|
    requires Step(a, i, o, conv).Ok?
    ensures Step(a + b, i, o, conv) == Step(a, i, o, conv)
  {
    assert forall k :: 0 <= k < |a| ==> (a + b)[k] == a[k];
  }

  /** Reading a vector that extends one the loop consumed completely
      continues from the store the shorter vector produced. */
  lemma {:induction false} ParseAppend(a: seq<string>, b: seq<string>, i: nat, o: Options, conv: Converters)
    requires 1 <= i <= |a|
    requires ParseFrom(a, i, o, conv).Ok?
    ensures ParseFrom(a + b, i, o, conv) == ParseFrom(a + b, |a|, ParseFrom(a, i, o, conv).value, conv)
    decreases |a| - i
  {
    if i < |a| {
      var p := Step(a, i, o, conv).value;
      StepPrefix(a, b, i, o, conv);
      ParseAppend(a, b, p.next, p.opts, conv);
    }
  }

  /** A repeated flag overwrites the earlier value: `-t n` at the end of any
      vector the loop accepts decides the thread count, and nothing else changes. */
  lemma RepeatedFlagOverwrites(a: seq<string>, s: string, o: Options, conv: Converters)
    requires 1 <= |a|
    requires ParseFrom(a, 1, o, conv).Ok?
    ensures ParseFrom(a + ["-t", s], 1, o, conv)
            == Ok(Set(ParseFrom(a, 1, o, conv).value, NbThreadsField, IntValue(conv.atoi(s))))
  {
    ParseAppend(a, ["-t", s], 1, o, conv);
    var m := ParseFrom(a, 1, o, conv).value;
    var v := a + ["-t", s];
    assert v[|a|] == "-t" && v[|a| + 1] == s;
    assert Step(v, |a|, m, conv) == Ok(Progress(|a| + 2, Set(m, NbThreadsField, IntValue(conv.atoi(s)))));
  }

  /** A capture flag followed by its zoom speed only reports the zoom-speed
      token, not `-c`, as the parameter lacking a value. */
  lemma MissingFrameCountNamesSpeed(conv: Converters)
    ensures ArgsRead(["mandel", "-c", "2.0"], conv) == Err(MissingParameter("2.0"))
    ensures ArgsRead(["mandel", "-c"], conv) == Err(MissingParameter("-c"))
  {
    assert Step(["mandel", "-c", "2.0"], 1, Defaults, conv) == Err(MissingParameter("2.0"));
    assert Step(["mandel", "-c"], 1, Defaults, conv) == Err(MissingParameter("-c"));
  }

  /** A token that is not a flag aborts the reader, whatever follows it. */
  lemma UnknownTokenAborts(tok: string, rest: seq<string>, conv: Converters)
    requires !IsFlag(tok)
    ensures ArgsRead(["mandel", tok] + rest, conv) == Err(UnknownParameter(tok))
  {
    var v := ["mandel", tok] + rest;
    assert v[1] == tok;
  }

  /** A command line that reproduces a store: every valued option spelled
      out, then the mode flags that are on. Integers are written in decimal
      and reals with a formatter `ftoa` supplied by the caller. */
  function Encode(o: Options, ftoa: real -> string): seq<string> {
    EncodeValues(o, ftoa) + EncodeModes(o, ftoa)
  }

  function EncodeValues(o: Options, ftoa: real -> string): (v: seq<string>)
    ensures |v| == 18
  {
    ["mandel",
     "-d", IntToDecimal(o.dimension.width), IntToDecimal(o.dimension.height),
     "-b", ftoa(o.bounds.xmin), ftoa(o.bounds.xmax), ftoa(o.bounds.ymin), ftoa(o.bounds.ymax),
     "-i", ftoa(o.init.re), ftoa(o.init.im),
     "-t", IntToDecimal(o.nbThreads),
     "-n", IntToDecimal(o.nbMaxIt),
     "--picture-name", o.pictureName]
  }

  function EncodeModes(o: Options, ftoa: real -> string): seq<string> {
    FlagToken(o.fullscreen, "-f") + (FlagToken(o.julia, "-j") + (FlagToken(o.photoMode, "-p") + CaptureTokens(o, ftoa)))
  }

  /** A mode flag is written when its option is 1. */
  function FlagToken(on: int, flag: string): seq<string> {
    if on == 1 then [flag] else []
  }

  /** The capture flag and its values are written when capture mode is 1. */
  function CaptureTokens(o: Options, ftoa: real -> string): seq<string> {
    if o.captureMode == 1 then ["-c", ftoa(o.captureZoomSpeed), IntToDecimal(o.captureNbFrames)] else []
  }

  /** The stores a command line can reproduce: mode flags 0 or 1, and the
      capture parameters at their defaults unless capture mode is on. */
  predicate Encodable(o: Options) {
    && o.fullscreen in {0, 1} && o.julia in {0, 1}
    && o.photoMode in {0, 1} && o.captureMode in {0, 1}
    && (o.captureMode == 0 ==>
          o.captureZoomSpeed == Defaults.captureZoomSpeed && o.captureNbFrames == Defaults.captureNbFrames)
  }

  /** Converters that undo the formatting used by `Encode` on the store
      `o`: `atoi` reads back every decimal text, and `atof` reads back the
      formatted text of each of the store's seven reals. */
  ghost predicate Inverts(conv: Converters, ftoa: real -> string, o: Options) {
    && (forall n :: conv.atoi(IntToDecimal(n)) == n)
    && conv.atof(ftoa(o.bounds.xmin)) == o.bounds.xmin
    && conv.atof(ftoa(o.bounds.xmax)) == o.bounds.xmax
    && conv.atof(ftoa(o.bounds.ymin)) == o.bounds.ymin
    && conv.atof(ftoa(o.bounds.ymax)) == o.bounds.ymax
    && conv.atof(ftoa(o.init.re)) == o.init.re
    && conv.atof(ftoa(o.init.im)) == o.init.im
    && conv.atof(ftoa(o.captureZoomSpeed)) == o.captureZoomSpeed
  }

  /** The seven reals a store's encoding formats. */
  function RealsOf(o: Options): (rs: seq<real>)
    ensures |rs| == 7
  {
    [o.bounds.xmin, o.bounds.xmax, o.bounds.ymin, o.bounds.ymax, o.init.re, o.init.im, o.captureZoomSpeed]
  }

  /** The first position of `x` in `rs`, or `|rs|` when it does not occur. */
  function FirstIndex(rs: seq<real>, x: real): (k: nat)
    ensures k <= |rs|
    ensures k < |rs| ==> rs[k] == x
    ensures (exists j :: 0 <= j < |rs| && rs[j] == x) ==> k < |rs|
  {
    if |rs| == 0 then 0 else if rs[0] == x then 0 else 1 + FirstIndex(rs[1..], x)
  }

  /** A real formatter for the store `o`: each of its reals is written as
      its position among them. */
  function PositionFtoa(o: Options): real -> string {
    x => IntToDecimal(FirstIndex(RealsOf(o), x))
  }

  /** Converters reading `%i` text and looking a position up among the
      store's reals. */
  function PositionConverters(o: Options): Converters {
    Converters(s => ReadInt(s), s => var k := ReadInt(s); if 0 <= k < 7 then RealsOf(o)[k] else 0.0)
  }

  /** Every store has converters that invert its formatting, so the
      round-trip lemmas below are not vacuous. */
  lemma InvertsSatisfiable(o: Options)
    ensures Inverts(PositionConverters(o), PositionFtoa(o), o)
  {
    var conv, ftoa, rs := PositionConverters(o), PositionFtoa(o), RealsOf(o);
    forall n
      ensures conv.atoi(IntToDecimal(n)) == n
    {
      ReadIntRoundTrip(n);
    }
    forall i | 0 <= i < 7
      ensures conv.atof(ftoa(rs[i])) == rs[i]
    {
      var k := FirstIndex(rs, rs[i]);
      ReadIntRoundTrip(k);
    }
    assert conv.atof(ftoa(rs[0])) == rs[0] && conv.atof(ftoa(rs[1])) == rs[1];
    assert conv.atof(ftoa(rs[2])) == rs[2] && conv.atof(ftoa(rs[3])) == rs[3];
    assert conv.atof(ftoa(rs[4])) == rs[4] && conv.atof(ftoa(rs[5])) == rs[5];
    assert conv.atof(ftoa(rs[6])) == rs[6];
  }

  /** One turn of the loop, taken. */
  lemma ParseUnfold(v: seq<string>, i: nat, o: Options, conv: Converters, j: nat, o': Options)
    requires 1 <= i < |v|
    requires Step(v, i, o, conv) == Ok(Progress(j, o'))
    ensures ParseFrom(v, i, o, conv) == ParseFrom(v, j, o', conv)
  {
  }

  lemma StepValued(v: seq<string>, i: nat, o: Options, conv: Converters)
    requires 1 <= i < |v| && i + Arity(v[i]) < |v|
    requires v[i] in {"-d", "-b", "-i", "-t", "-n", "--picture-name"}
    ensures v[i] == "-d" ==>
              Step(v, i, o, conv) == Ok(Progress(i + 3, o.(dimension := Dimension(conv.atoi(v[i + 1]), conv.atoi(v[i + 2])))))
    ensures v[i] == "-b" ==>
              Step(v, i, o, conv) == Ok(Progress(i + 5, o.(bounds := Bounds(conv.atof(v[i + 1]), conv.atof(v[i + 2]),
                                                          conv.atof(v[i + 3]), conv.atof(v[i + 4])))))
    ensures v[i] == "-i" ==>
              Step(v, i, o, conv) == Ok(Progress(i + 3, o.(init := Complex(conv.atof(v[i + 1]), conv.atof(v[i + 2])))))
    ensures v[i] == "-t" ==> Step(v, i, o, conv) == Ok(Progress(i + 2, o.(nbThreads := conv.atoi(v[i + 1]))))
    ensures v[i] == "-n" ==> Step(v, i, o, conv) == Ok(Progress(i + 2, o.(nbMaxIt := conv.atoi(v[i + 1]))))
    ensures v[i] == "--picture-name" ==> Step(v, i, o, conv) == Ok(Progress(i + 2, o.(pictureName := v[i + 1])))
  {
  }

  /** The encoded line puts `-d` and `-b` in front of their values. */
  lemma EncodedGeometryAt(o: Options, t: seq<string>, ftoa: real -> string)
    ensures var v := EncodeValues(o, ftoa) + t;
            && v[1] == "-d" && v[2] == IntToDecimal(o.dimension.width) && v[3] == IntToDecimal(o.dimension.height)
            && v[4] == "-b" && v[5] == ftoa(o.bounds.xmin) && v[6] == ftoa(o.bounds.xmax)
            && v[7] == ftoa(o.bounds.ymin) && v[8] == ftoa(o.bounds.ymax)
  {
  }

  /** The encoded line puts `-i`, `-t`, `-n` and `--picture-name` in front of their values. */
  lemma EncodedLimitsAt(o: Options, t: seq<string>, ftoa: real -> string)
    ensures var v := EncodeValues(o, ftoa) + t;
            && v[9] == "-i" && v[10] == ftoa(o.init.re) && v[11] == ftoa(o.init.im)
            && v[12] == "-t" && v[13] == IntToDecimal(o.nbThreads)
            && v[14] == "-n" && v[15] == IntToDecimal(o.nbMaxIt)
            && v[16] == "--picture-name" && v[17] == o.pictureName
  {
  }

  /** Reading `-d`, `-b` and `-i` as encoded sets dimension, bounds and init. */
  lemma {:induction false} GeometryRoundTrip(o: Options, t: seq<string>, ftoa: real -> string, conv: Converters)
    requires Inverts(conv, ftoa, o)
    ensures ParseFrom(EncodeValues(o, ftoa) + t, 1, Defaults, conv)
            == ParseFrom(EncodeValues(o, ftoa) + t, 12, Defaults.(dimension := o.dimension, bounds := o.bounds,
                 init := o.init), conv)
  {
    var v := EncodeValues(o, ftoa) + t;
    EncodedGeometryAt(o, t, ftoa);
    EncodedLimitsAt(o, t, ftoa);
    var o1 := Defaults.(dimension := o.dimension);
    var o2 := o1.(bounds := o.bounds);
    var o3 := o2.(init := o.init);
    StepValued(v, 1, Defaults, conv);
    ParseUnfold(v, 1, Defaults, conv, 4, o1);
    StepValued(v, 4, o1, conv);
    ParseUnfold(v, 4, o1, conv, 9, o2);
    StepValued(v, 9, o2, conv);
    ParseUnfold(v, 9, o2, conv, 12, o3);
  }

  /** Reading `-t`, `-n` and `--picture-name` as encoded sets the thread
      count, the cap and the picture name. */
  lemma {:induction false} LimitsRoundTrip(o: Options, t: seq<string>, ftoa: real -> string, conv: Converters, o3: Options)
    requires Inverts(conv, ftoa, o)
    ensures ParseFrom(EncodeValues(o, ftoa) + t, 12, o3, conv)
            == ParseFrom(EncodeValues(o, ftoa) + t, 18, o3.(nbThreads := o.nbThreads, nbMaxIt := o.nbMaxIt,
                 pictureName := o.pictureName), conv)
  {
    var v := EncodeValues(o, ftoa) + t;
    EncodedLimitsAt(o, t, ftoa);
    var o4 := o3.(nbThreads := o.nbThreads);
    var o5 := o4.(nbMaxIt := o.nbMaxIt);
    var o6 := o5.(pictureName := o.pictureName);
    StepValued(v, 12, o3, conv);
    ParseUnfold(v, 12, o3, conv, 14, o4);
    StepValued(v, 14, o4, conv);
    ParseUnfold(v, 14, o4, conv, 16, o5);
    StepValued(v, 16, o5, conv);
    ParseUnfold(v, 16, o5, conv, 18, o6);
  }

  /** Reading the six value flags as encoded sets exactly the encoded
      dimension, bounds, init, thread count, cap and picture name. */
  lemma ValuesRoundTrip(o: Options, t: seq<string>, ftoa: real -> string, conv: Converters)
    requires Inverts(conv, ftoa, o)
    ensures ParseFrom(EncodeValues(o, ftoa) + t, 1, Defaults, conv)
            == ParseFrom(EncodeValues(o, ftoa) + t, 18, Defaults.(dimension := o.dimension, bounds := o.bounds,
                 init := o.init, nbThreads := o.nbThreads, nbMaxIt := o.nbMaxIt, pictureName := o.pictureName), conv)
  {
    GeometryRoundTrip(o, t, ftoa, conv);
    LimitsRoundTrip(o, t, ftoa, conv, Defaults.(dimension := o.dimension, bounds := o.bounds, init := o.init));
  }

  lemma StepMode(v: seq<string>, i: nat, o: Options, conv: Converters)
    requires 1 <= i < |v|
    requires v[i] in {"-f", "-j", "-p"} || (v[i] == "-c" && i + 2 < |v|)
    ensures v[i] == "-f" ==> Step(v, i, o, conv) == Ok(Progress(i + 1, o.(fullscreen := 1)))
    ensures v[i] == "-j" ==> Step(v, i, o, conv) == Ok(Progress(i + 1, o.(julia := 1)))
    ensures v[i] == "-p" ==> Step(v, i, o, conv) == Ok(Progress(i + 1, o.(photoMode := 1)))
    ensures v[i] == "-c" ==>
              Step(v, i, o, conv) == Ok(Progress(i + 3, o.(captureMode := 1,
                captureZoomSpeed := conv.atof(v[i + 1]), captureNbFrames := conv.atoi(v[i + 2]))))
  {
  }

  /** Reading one optional mode flag, or nothing, where `v[k..]` starts with `chunk`. */
  lemma ModeChunk(v: seq<string>, k: nat, cur: Options, next: Options, conv: Converters,
                  chunk: seq<string>, tail: seq<string>)
    requires 1 <= k && k + |chunk| <= |v| && v[k..] == chunk + tail
    requires || (chunk == [] && next == cur)
             || (chunk == ["-f"] && next == cur.(fullscreen := 1))
             || (chunk == ["-j"] && next == cur.(julia := 1))
             || (chunk == ["-p"] && next == cur.(photoMode := 1))
    ensures v[k + |chunk|..] == tail
    ensures ParseFrom(v, k, cur, conv) == ParseFrom(v, k + |chunk|, next, conv)
  {
    assert v[k + |chunk|..] == (chunk + tail)[|chunk|..];
    if chunk != [] {
      assert v[k] == (chunk + tail)[0];
      StepMode(v, k, cur, conv);
      ParseUnfold(v, k, cur, conv, k + 1, next);
    }
  }

  lemma ModesRoundTrip(o: Options, ftoa: real -> string, conv: Converters)
    requires Encodable(o) && Inverts(conv, ftoa, o)
    ensures ParseFrom(Encode(o, ftoa), 18, Defaults.(dimension := o.dimension, bounds := o.bounds,
              init := o.init, nbThreads := o.nbThreads, nbMaxIt := o.nbMaxIt, pictureName := o.pictureName), conv)
            == Ok(o)
  {
    var v := Encode(o, ftoa);
    var f := FlagToken(o.fullscreen, "-f");
    var j := FlagToken(o.julia, "-j");
    var p := FlagToken(o.photoMode, "-p");
    var c := CaptureTokens(o, ftoa);
    assert v[18..] == f + (j + (p + c));
    var o0 := Defaults.(dimension := o.dimension, bounds := o.bounds,
              init := o.init, nbThreads := o.nbThreads, nbMaxIt := o.nbMaxIt, pictureName := o.pictureName);
    var o1 := o0.(fullscreen := o.fullscreen);
    var o2 := o1.(julia := o.julia);
    var o3 := o2.(photoMode := o.photoMode);
    ModeChunk(v, 18, o0, o1, conv, f, j + (p + c));
    ModeChunk(v, 18 + |f|, o1, o2, conv, j, p + c);
    ModeChunk(v, 18 + |f| + |j|, o2, o3, conv, p, c);
    CaptureTail(o, o3, ftoa, conv);
    CaptureChunk(v, 18 + |f| + |j| + |p|, o3, o, conv, c);
  }

  /** The store reached before the optional capture flag differs from the
      encoded one at most in the capture fields, which that flag restores. */
  lemma CaptureTail(o: Options, cur: Options, ftoa: real -> string, conv: Converters)
    requires Encodable(o) && Inverts(conv, ftoa, o)
    requires cur == Defaults.(dimension := o.dimension, bounds := o.bounds, init := o.init, nbThreads := o.nbThreads,
                              nbMaxIt := o.nbMaxIt, pictureName := o.pictureName, fullscreen := o.fullscreen,
                              julia := o.julia, photoMode := o.photoMode)
    ensures var c := CaptureTokens(o, ftoa);
            || (c == [] && o == cur)
            || (|c| == 3 && c[0] == "-c" && o == cur.(captureMode := 1,
                  captureZoomSpeed := conv.atof(c[1]), captureNbFrames := conv.atoi(c[2])))
  {
  }

  /** Reading the optional capture flag and its two values, which end the vector. */
  lemma CaptureChunk(v: seq<string>, k: nat, cur: Options, next: Options, conv: Converters, chunk: seq<string>)
    requires 1 <= k <= |v| && v[k..] == chunk
    requires || (chunk == [] && next == cur)
             || (|chunk| == 3 && chunk[0] == "-c" && next == cur.(captureMode := 1,
                   captureZoomSpeed := conv.atof(chunk[1]), captureNbFrames := conv.atoi(chunk[2])))
    ensures ParseFrom(v, k, cur, conv) == Ok(next)
  {
    if chunk != [] {
      assert v[k] == "-c" && v[k + 1] == chunk[1] && v[k + 2] == chunk[2];
      StepMode(v, k, cur, conv);
      ParseUnfold(v, k, cur, conv, k + 3, next);
    }
  }

  /** Reading the encoding of a store gives back that store, subject to
      the validator: the encoding is a right inverse of the reader. */
  lemma EncodeRoundTrip(o: Options, ftoa: real -> string, conv: Converters)
    requires Encodable(o) && Inverts(conv, ftoa, o)
    ensures ParseFrom(Encode(o, ftoa), 1, Defaults, conv) == Ok(o)
    ensures ArgsRead(Encode(o, ftoa), conv) == if Check(o).Pass? then Ok(o) else Err(InvalidOptions(Check(o).error))
  {
    ValuesRoundTrip(o, EncodeModes(o, ftoa), ftoa, conv);
    ModesRoundTrip(o, ftoa, conv);
  }

  /** Every store with 0/1 mode flags is reached by some command line:
      the encoding read with the position converters gives the store back,
      and the read succeeds exactly when the store passes the validator. */
  lemma EveryEncodableStoreIsReachable(o: Options)
    requires Encodable(o)
    ensures ParseFrom(Encode(o, PositionFtoa(o)), 1, Defaults, PositionConverters(o)) == Ok(o)
    ensures ArgsRead(Encode(o, PositionFtoa(o)), PositionConverters(o))
            == if Check(o).Pass? then Ok(o) else Err(InvalidOptions(Check(o).error))
  {
    InvertsSatisfiable(o);
    EncodeRoundTrip(o, PositionFtoa(o), PositionConverters(o));
  }
}

=== FILE: carith.dfy ===
/** The two pieces of C arithmetic the program relies on and that differ
    from Dafny's: the double-to-int conversion, which truncates toward zero,
    and the `%` operator, whose result takes the sign of the dividend. */
module CArith {

  /** `(int) x` for a double `x` taken as a real (no overflow modelled). */
  function TruncToInt(x: real): (r: int)
    ensures x >= 0.0 ==> 0 <= r && r as real <= x < r as real + 1.0
    ensures x < 0.0 ==> r <= 0 && r as real - 1.0 < x <= r as real
  {
    if x >= 0.0 then x.Floor else -((-x).Floor)
  }

  /** C integer division: the quotient is truncated toward zero. */
  function CQuot(a: int, b: int): int
    requires b != 0
  {
    if (a >= 0) == (b > 0) then (if a >= 0 then a / b else (-a) / (-b))
    else -(if a >= 0 then a / (-b) else (-a) / b)
  }

  /** C remainder `a % b`: same sign as `a`, magnitude below `|b|`. */
  function CRem(a: int, b: int): (r: int)
    requires b != 0
    ensures a == b * CQuot(a, b) + r
    ensures a >= 0 ==> 0 <= r < (if b > 0 then b else -b)
    ensures a < 0 ==> -(if b > 0 then b else -b) < r <= 0
  {
    a - b * CQuot(a, b)
  }
}

=== FILE: colors.dfy ===
/** The colour table: a walk around the hue circle in 4096 equal steps, the
    lookup of a smoothed escape value in it, and the hue sector selecting
    the HSV-to-RGB formula. Channel values are left out. */
module Colors {
  import opened CArith

  const NbColor: int := 4096

  /** One step of the walk: advance by `sweep / 4096` degrees, and restart
      at 0 when the hue goes above 360. */
  function NextHue(h: real, sweep: real): (r: real)
    ensures r <= 360.0
    ensures h + sweep / NbColor as real <= 360.0 ==> r == h + sweep / NbColor as real
    ensures h + sweep / NbColor as real > 360.0 ==> r == 0.0
  {
    var h' := h + sweep / NbColor as real;
    if h' > 360.0 then 0.0 else h'
  }

  /** The hue of table entry `i`: the walk advances before each entry, so
      entry 0 already holds the start plus one step. */
  function HueAt(start: real, sweep: real, i: nat): real
    decreases i
  {
    if i == 0 then NextHue(start, sweep) else NextHue(HueAt(start, sweep, i - 1), sweep)
  }

  /** The table's hues as the building loop computes them. Every hue lies on
      the circle [0, 360] when the start and the sweep are not negative, and
      a zero sweep from a start on the circle gives 4096 equal hues. */
  method BuildHues(start: real, sweep: real) returns (hues: seq<real>)
    ensures |hues| == NbColor
    ensures forall i :: 0 <= i < NbColor ==> hues[i] == HueAt(start, sweep, i)
    ensures start >= 0.0 && sweep >= 0.0 ==> forall i :: 0 <= i < NbColor ==> 0.0 <= hues[i] <= 360.0
    ensures sweep == 0.0 && start <= 360.0 ==> forall i :: 0 <= i < NbColor ==> hues[i] == start
  {
    var h := start;
    hues := [];
    var i := 0;
    while i < NbColor
      invariant 0 <= i <= NbColor && |hues| == i
      invariant forall k :: 0 <= k < i ==> hues[k] == HueAt(start, sweep, k)
      invariant h == if i == 0 then start else HueAt(start, sweep, i - 1)
    {
      h := h + sweep / NbColor as real;
      if h > 360.0 {
        h := 0.0;
      }
      hues := hues + [h];
      i := i + 1;
    }
    forall k | 0 <= k < NbColor
      ensures start >= 0.0 && sweep >= 0.0 ==> 0.0 <= hues[k] <= 360.0
      ensures sweep == 0.0 && start <= 360.0 ==> hues[k] == start
    {
      HueOnCircle(start, sweep, k);
      HueStill(start, sweep, k);
    }
  }

  /** From a start and a sweep that are not negative, every hue of the walk
      lies on the circle [0, 360]. */
  lemma {:induction false} HueOnCircle(start: real, sweep: real, i: nat)
    ensures start >= 0.0 && sweep >= 0.0 ==> 0.0 <= HueAt(start, sweep, i) <= 360.0
    decreases i
  {
    if i > 0 {
      HueOnCircle(start, sweep, i - 1);
    }
  }

  /** A zero sweep from a start on the circle never moves the hue. */
  lemma {:induction false} HueStill(start: real, sweep: real, i: nat)
    ensures sweep == 0.0 && start <= 360.0 ==> HueAt(start, sweep, i) == start
    decreases i
  {
    if i > 0 {
      HueStill(start, sweep, i - 1);
    }
  }

  /** The table built when a surface is first rendered (start 0, sweep
      360) walks the circle exactly once: entry `i` has hue
      (i + 1) * 360 / 4096 and no entry restarts at 0. */
  lemma {:induction false} FirstTableSweepsOnce(i: nat)
    requires i < NbColor
    ensures HueAt(0.0, 360.0, i) == (i + 1) as real * 360.0 / NbColor as real
    decreases i
  {
    if i > 0 {
      FirstTableSweepsOnce(i - 1);
    }
  }

  /** The sector `(int)(h / 60) % 6` choosing one of the six HSV-to-RGB
      cases. For a hue on the circle it is in 0..5, and below 360 it is the
      60-degree slice containing the hue; 360 wraps to sector 0. */
  function Sector(h: real): (r: int)
    ensures h >= 0.0 ==> 0 <= r < 6
    ensures 0.0 <= h < 360.0 ==> r as real * 60.0 <= h < (r + 1) as real * 60.0
    ensures h == 360.0 ==> r == 0
  {
    CRem(TruncToInt(h / 60.0), 6)
  }

  /** The clamp of a smoothed value to [0, 1]: values inside the interval
      pass through, values below it become 0 and values above it become 1,
      so the result is the point of [0, 1] nearest to the value. */
  function Clamp(val: real): (c: real)
    ensures 0.0 <= c <= 1.0
    ensures 0.0 <= val <= 1.0 ==> c == val
    ensures val < 0.0 ==> c == 0.0
    ensures val > 1.0 ==> c == 1.0
  {
    if val < 0.0 then 0.0 else if val > 1.0 then 1.0 else val
  }

  /** The table index of a smoothed value: clamped to [0, 1], scaled to 4096
      and reduced modulo 4096, so it is always a valid index; 1 (and above)
      wraps to entry 0; otherwise it is the 1/4096 slice holding the value. */
  function ColorIndex(val: real): (r: int)
    ensures 0 <= r < NbColor
    ensures val >= 1.0 ==> r == 0
    ensures val <= 0.0 ==> r == 0
    ensures 0.0 <= val < 1.0 ==> r as real <= val * NbColor as real < (r + 1) as real
  {
    CRem(TruncToInt(Clamp(val) * NbColor as real), NbColor)
  }

  /** Larger values below 1 never select an earlier entry. */
  lemma ColorIndexMonotone(a: real, b: real)
    requires 0.0 <= a <= b < 1.0
    ensures ColorIndex(a) <= ColorIndex(b)
  {
    var ia := ColorIndex(a);
    var ib := ColorIndex(b);
    assert ia as real <= a * 4096.0 <= b * 4096.0 < (ib + 1) as real;
  }
}

=== FILE: decimal.dfy ===
/** Decimal rendering of an integer, as `%i` prints it, and the inverse reading. */
module Decimal {

  predicate IsDigit(ch: char) {
    '0' <= ch <= '9'
  }

  function DigitChar(d: nat): (ch: char)
    requires d < 10
    ensures IsDigit(ch)
  {
    ['0', '1', '2', '3', '4', '5', '6', '7', '8', '9'][d]
  }

  function DigitValue(ch: char): (d: nat)
    requires IsDigit(ch)
    ensures d < 10
  {
    (ch as int - '0' as int) as nat
  }

  lemma DigitRoundTrip(d: nat)
    requires d < 10
    ensures DigitValue(DigitChar(d)) == d
  {
  }

  /** Decimal digits of a natural number, most significant first, no leading zero. */
  function NatToDecimal(n: nat): (s: string)
    ensures 1 <= |s|
    ensures forall k :: 0 <= k < |s| ==> IsDigit(s[k])
    ensures |s| > 1 ==> s[0] != '0'
    decreases n
  {
    if n < 10 then [DigitChar(n)] else NatToDecimal(n / 10) + [DigitChar(n % 10)]
  }

  /** `%i`: a minus sign before the digits of a negative number. */
  function IntToDecimal(n: int): (s: string)
    ensures 1 <= |s|
    ensures n >= 0 <==> IsDigit(s[0])
  {
    if n >= 0 then NatToDecimal(n) else "-" + NatToDecimal(-n)
  }

  /** The value of a string of decimal digits, the reading that undoes `NatToDecimal`. */
  function DecimalValue(s: string): nat
    requires forall k :: 0 <= k < |s| ==> IsDigit(s[k])
  {
    if |s| == 0 then 0 else 10 * DecimalValue(s[..|s| - 1]) + DigitValue(s[|s| - 1])
  }

  lemma {:induction false} DecimalRoundTrip(n: nat)
    ensures DecimalValue(NatToDecimal(n)) == n
    decreases n
  {
    var s := NatToDecimal(n);
    if n < 10 {
      DigitRoundTrip(n);
      assert s[..0] == [];
    } else {
      var p := NatToDecimal(n / 10);
      assert s == p + [DigitChar(n % 10)];
      assert s[..|s| - 1] == p;
      DecimalRoundTrip(n / 10);
      DigitRoundTrip(n % 10);
    }
  }

  /** The reading of `%i` text back to an int: an optional minus sign, then
      decimal digits; any other text reads as 0. */
  function ReadInt(s: string): int {
    if |s| > 0 && (forall k :: 0 <= k < |s| ==> IsDigit(s[k])) then DecimalValue(s)
    else if |s| > 1 && s[0] == '-' && (forall k :: 1 <= k < |s| ==> IsDigit(s[k])) then 0 - DecimalValue(s[1..]) as int
    else 0
  }

  /** Reading the `%i` text of any int gives the int back. */
  lemma ReadIntRoundTrip(n: int)
    ensures ReadInt(IntToDecimal(n)) == n
  {
    if n >= 0 {
      DecimalRoundTrip(n);
    } else {
      var t := NatToDecimal(-n);
      var s := IntToDecimal(n);
      assert s == "-" + t && s[1..] == t;
      assert !IsDigit(s[0]);
      DecimalRoundTrip(-n);
    }
  }

  /** Distinct numbers print differently. */
  lemma IntToDecimalInjective(a: int, b: int)
    requires IntToDecimal(a) == IntToDecimal(b)
    ensures a == b
  {
    if a >= 0 && b >= 0 {
      DecimalRoundTrip(a);
      DecimalRoundTrip(b);
    } else if a < 0 && b < 0 {
      assert NatToDecimal(-a) == IntToDecimal(a)[1..];
      assert NatToDecimal(-b) == IntToDecimal(b)[1..];
      DecimalRoundTrip(-a);
      DecimalRoundTrip(-b);
    }
  }
}

=== FILE: engine.dfy ===
/** One render pass put together: the pass parameters, the sample point of
    each pixel, the row a worker computes, and the surface a completed pass
    leaves behind, whichever worker wrote which row and in which order. */
module Engine {
  import opened Types
  import opened Kernel
  import Colors
  import Framebuffer
  import RowClaim

  /** The parameters copied into the engine at the start of a pass. */
  datatype Params = Params(bounds: Bounds, init: Complex, julia: int, nbMaxIt: int)

  /** The smoothing formula, a function of the counter, the final |z|^2 and
      the cap; its logarithms are left uninterpreted. */
  type Smoothing = (int, real, int) -> real

  /** The point of pixel (x, y): steps of (xmax - xmin) / w to the right of
      xmin and (ymax - ymin) / h above ymin. For ordered bounds the points
      of a row run left to right inside the bounds. */
  function SamplePoint(b: Bounds, w: nat, h: nat, x: nat, y: nat): (p: Complex)
    requires 0 < w && 0 < h
    ensures Ordered(b) && x < w ==> b.xmin <= p.re < b.xmax
    ensures Ordered(b) && y < h ==> b.ymin <= p.im < b.ymax
  {
    var xIncr := Width(b) / w as real;
    var yIncr := Height(b) / h as real;
    assert Ordered(b) && x < w ==> x as real * xIncr < w as real * xIncr == Width(b);
    assert Ordered(b) && y < h ==> y as real * yIncr < h as real * yIncr == Height(b);
    Complex(b.xmin + x as real * xIncr, b.ymin + y as real * yIncr)
  }

  /** The scan of the sample points: column 0 starts at xmin, each pixel to
      the right adds one step of (xmax - xmin) / w to the real part, and the
      imaginary part depends on the row only, starting at ymin on row 0 and
      growing by (ymax - ymin) / h per row. */
  lemma SampleSteps(b: Bounds, w: nat, h: nat, x: nat, y: nat, x': nat)
    requires 0 < w && 0 < h
    ensures SamplePoint(b, w, h, 0, y).re == b.xmin
    ensures SamplePoint(b, w, h, x + 1, y).re == SamplePoint(b, w, h, x, y).re + Width(b) / w as real
    ensures SamplePoint(b, w, h, x, y).im == SamplePoint(b, w, h, x', y).im
    ensures SamplePoint(b, w, h, x, 0).im == b.ymin
    ensures SamplePoint(b, w, h, x, y + 1).im == SamplePoint(b, w, h, x, y).im + Height(b) / h as real
  {
  }

  /** The packed pixel of (x, y) for the pass: black when the sample point
      reaches the cap, otherwise the colour table entry of its smoothed
      value. */
  function Pixel(p: Params, w: nat, h: nat, x: nat, y: nat, smooth: Smoothing, table: seq<bv32>): (px: bv32)
    requires 0 < w && 0 < h && |table| == Colors.NbColor
    ensures var e := PixelEscape(p.julia, p.init, SamplePoint(p.bounds, w, h, x, y), p.nbMaxIt);
            && (e.it == p.nbMaxIt ==> px == 0)
            && (e.it != p.nbMaxIt ==> px == table[Colors.ColorIndex(smooth(e.it, SqMod(e.z), p.nbMaxIt))])
  {
    var e := PixelEscape(p.julia, p.init, SamplePoint(p.bounds, w, h, x, y), p.nbMaxIt);
    Shade(e, p.nbMaxIt, smooth(e.it, SqMod(e.z), p.nbMaxIt), table)
  }

  /** The row a worker computes after claiming row `y`: `w` pixels, black
      where the sample point reached the cap. */
  function RowPixels(p: Params, w: nat, h: nat, y: nat, smooth: Smoothing, table: seq<bv32>): (row: seq<bv32>)
    requires 0 < w && 0 < h && |table| == Colors.NbColor
    ensures |row| == w
    ensures forall x :: 0 <= x < w ==> row[x] == Pixel(p, w, h, x, y, smooth, table)
    ensures forall x :: 0 <= x < w && PixelEscape(p.julia, p.init, SamplePoint(p.bounds, w, h, x, y), p.nbMaxIt).it == p.nbMaxIt
              ==> row[x] == 0
  {
    seq(w, x requires 0 <= x < w => Pixel(p, w, h, x, y, smooth, table))
  }

  /** Every row of the pass. */
  function Image(p: Params, w: nat, h: nat, smooth: Smoothing, table: seq<bv32>): (img: seq<seq<bv32>>)
    requires 0 < w && 0 < h && |table| == Colors.NbColor
    ensures |img| == h
    ensures forall y :: 0 <= y < h ==> img[y] == RowPixels(p, w, h, y, smooth, table)
  {
    seq(h, y requires 0 <= y < h => RowPixels(p, w, h, y, smooth, table))
  }

  /** The rows in increasing order, as a single worker would write them. */
  function InOrder(h: nat): (rows: seq<int>)
    ensures |rows| == h
    ensures forall k :: 0 <= k < h ==> rows[k] == k
  {
    seq(h, k requires 0 <= k < h => k)
  }

  /** The rows 0 .. h-1 as a set. */
  function AllRows(h: nat): (rows: set<int>)
    ensures forall y :: y in rows <==> 0 <= y < h
  {
    if h == 0 then {} else AllRows(h - 1) + {h - 1}
  }

  /** When the caller may return from `render`, the rows written are
      exactly the rows of the surface: each in range, none missing. */
  lemma WrittenCoversRows(s: RowClaim.PassState)
    requires RowClaim.Inv(s) && RowClaim.Next(s, RowClaim.Return).Some?
    ensures forall k :: 0 <= k < |s.written| ==> 0 <= s.written[k] < s.height
    ensures (set k | 0 <= k < |s.written| :: s.written[k]) == AllRows(s.height)
  {
    RowClaim.ReturnOnlyWhenComplete(s, 0);
    assert s.inPass;
    forall k | 0 <= k < |s.written|
      ensures 0 <= s.written[k] < s.height
    {
      RowClaim.PassComplete(s, s.written[k]);
      assert s.written[k] in multiset(s.written);
    }
    var ws := set k | 0 <= k < |s.written| :: s.written[k];
    forall v | v in AllRows(s.height)
      ensures v in ws
    {
      RowClaim.PassComplete(s, v);
      assert v in multiset(s.written);
      var k :| 0 <= k < |s.written| && s.written[k] == v;
    }
  }

  /** The in-order pass writes every row of the surface. */
  lemma InOrderCoversRows(h: nat)
    ensures (set k | 0 <= k < |InOrder(h)| :: InOrder(h)[k]) == AllRows(h)
  {
    var order := InOrder(h);
    forall y | y in AllRows(h)
      ensures y in (set k | 0 <= k < |order| :: order[k])
    {
      assert order[y] == y;
    }
  }

  /** A completed pass leaves the surface exactly as one worker writing
      rows 0 .. h-1 in order would, whatever the pool size and scheduling:
      when the caller returns from `render`, the rows written are each row
      of the surface once, and the surface is that of the in-order pass. */
  lemma CompletedPassIsDeterministic(s: RowClaim.PassState, p: Params, w: nat, pitch: nat,
                                     buf: seq<bv32>, smooth: Smoothing, table: seq<bv32>)
    requires RowClaim.Inv(s) && RowClaim.Next(s, RowClaim.Return).Some?
    requires 0 < w <= Framebuffer.Stride(pitch) && 0 < s.height && |table| == Colors.NbColor
    requires |buf| == s.height * Framebuffer.Stride(pitch)
    ensures forall k :: 0 <= k < |s.written| ==> 0 <= s.written[k] < s.height
    ensures Framebuffer.ApplyRows(buf, Framebuffer.Stride(pitch), Image(p, w, s.height, smooth, table), w, s.written)
            == Framebuffer.ApplyRows(buf, Framebuffer.Stride(pitch), Image(p, w, s.height, smooth, table), w, InOrder(s.height))
  {
    var img := Image(p, w, s.height, smooth, table);
    var stride := Framebuffer.Stride(pitch);
    WrittenCoversRows(s);
    InOrderCoversRows(s.height);
    assert Framebuffer.Shaped(buf, stride, img, w);
    Framebuffer.RowOrderIrrelevant(buf, stride, img, w, s.written, InOrder(s.height));
  }

  /** After a completed pass every cell of every row holds the pixel of
      the image; cells right of the image width keep their previous value. */
  lemma CompletedPassPaintsImage(s: RowClaim.PassState, img: seq<seq<bv32>>, stride: nat, w: nat, buf: seq<bv32>)
    requires RowClaim.Inv(s) && RowClaim.Next(s, RowClaim.Return).Some?
    requires |img| == s.height && Framebuffer.Shaped(buf, stride, img, w)
    ensures forall k :: 0 <= k < |s.written| ==> 0 <= s.written[k] < s.height
    ensures Framebuffer.Painted(Framebuffer.ApplyRows(buf, stride, img, w, s.written), buf, stride, img, w, AllRows(s.height))
  {
    WrittenCoversRows(s);
    Framebuffer.ApplyRowsPaints(buf, stride, img, w, s.written);
  }

  /** The same for the image the kernel computes. */
  lemma CompletedPassPaintsAll(s: RowClaim.PassState, p: Params, w: nat, pitch: nat,
                               buf: seq<bv32>, smooth: Smoothing, table: seq<bv32>)
    requires RowClaim.Inv(s) && RowClaim.Next(s, RowClaim.Return).Some?
    requires 0 < w <= Framebuffer.Stride(pitch) && 0 < s.height && |table| == Colors.NbColor
    requires |buf| == s.height * Framebuffer.Stride(pitch)
    ensures forall k :: 0 <= k < |s.written| ==> 0 <= s.written[k] < s.height
    ensures Framebuffer.Painted(Framebuffer.ApplyRows(buf, Framebuffer.Stride(pitch), Image(p, w, s.height, smooth, table), w, s.written),
                                buf, Framebuffer.Stride(pitch), Image(p, w, s.height, smooth, table), w, AllRows(s.height))
  {
    var img := Image(p, w, s.height, smooth, table);
    assert Framebuffer.Shaped(buf, Framebuffer.Stride(pitch), img, w);
    CompletedPassPaintsImage(s, img, Framebuffer.Stride(pitch), w, buf);
  }
}

=== FILE: framebuffer.dfy ===
/** The destination surface as the kernel addresses it: 32-bit pixels in
    rows of `pitch / 4` cells, of which the first `w` hold the image. Row `y`
    is written by exactly one worker, which fills cells
    y * (pitch / 4) ... y * (pitch / 4) + w - 1 and nothing else. */
module Framebuffer {

  /** Cells per row: the pitch is in bytes and a pixel is 4 bytes. */
  function Stride(pitch: nat): nat {
    pitch / 4
  }

  /** The cell of pixel `x` of row `y`: the row's first cell plus one cell per pixel. */
  function Cell(pitch: nat, y: int, x: int): int {
    y * Stride(pitch) + x
  }

  lemma MulMono(a: int, b: int, c: nat)
    requires a <= b
    ensures a * c <= b * c
  {
  }

  /** Every pixel of every row lies inside the surface's h * (pitch / 4) cells. */
  lemma CellInSurface(pitch: nat, w: nat, h: nat, y: int, x: int)
    requires w <= Stride(pitch)
    requires 0 <= y < h && 0 <= x < w
    ensures 0 <= Cell(pitch, y, x) < h * Stride(pitch)
  {
    MulMono(y + 1, h, Stride(pitch));
    MulMono(0, y, Stride(pitch));
    assert (y + 1) * Stride(pitch) == y * Stride(pitch) + Stride(pitch);
  }

  /** Distinct pixels, in the same row or not, never share a cell, so rows
      written by different workers are disjoint. */
  lemma CellsDistinct(pitch: nat, w: nat, y1: int, x1: int, y2: int, x2: int)
    requires w <= Stride(pitch)
    requires 0 <= x1 < w && 0 <= x2 < w
    requires (y1, x1) != (y2, x2)
    ensures Cell(pitch, y1, x1) != Cell(pitch, y2, x2)
  {
    var s := Stride(pitch);
    if y1 < y2 {
      MulMono(y1 + 1, y2, s);
      assert (y1 + 1) * s == y1 * s + s;
      assert Cell(pitch, y1, x1) < y1 * s + s <= y2 * s <= Cell(pitch, y2, x2);
    } else if y2 < y1 {
      MulMono(y2 + 1, y1, s);
      assert (y2 + 1) * s == y2 * s + s;
      assert Cell(pitch, y2, x2) < y2 * s + s <= y1 * s <= Cell(pitch, y1, x1);
    }
  }

  /** A buffer of `|image|` rows of `stride` cells and an image of rows `w` wide. */
  predicate Shaped(buf: seq<bv32>, stride: nat, image: seq<seq<bv32>>, w: nat) {
    && 1 <= stride && w <= stride
    && |buf| == |image| * stride
    && forall y :: 0 <= y < |image| ==> |image[y]| == w
  }

  /** The write of one row: cells `y * stride + x` for `x < |row|` take the
      row's pixels, every other cell keeps its value. */
  function WriteRow(buf: seq<bv32>, stride: nat, y: nat, row: seq<bv32>): (r: seq<bv32>)
    requires |row| <= stride && (y + 1) * stride <= |buf|
    ensures |r| == |buf|
    ensures forall x :: 0 <= x < |row| ==> r[y * stride + x] == row[x]
    ensures forall i :: 0 <= i < |buf| && !(y * stride <= i < y * stride + |row|) ==> r[i] == buf[i]
  {
    buf[..y * stride] + row + buf[y * stride + |row|..]
  }

  /** The buffer after the rows in `order` were written, in that order. */
  function ApplyRows(buf: seq<bv32>, stride: nat, image: seq<seq<bv32>>, w: nat, order: seq<int>): (r: seq<bv32>)
    requires Shaped(buf, stride, image, w)
    requires forall k :: 0 <= k < |order| ==> 0 <= order[k] < |image|
    ensures |r| == |buf|
    decreases |order|
  {
    if order == [] then buf
    else
      var y := order[|order| - 1];
      var prev := ApplyRows(buf, stride, image, w, order[..|order| - 1]);
      MulMono(y + 1, |image|, stride);
      WriteRow(prev, stride, y, image[y])
  }

  /** What a cell holds once the rows in `rows` were written: the image's
      pixel if its row was written and it is not row padding, else its old value. */
  predicate Painted(r: seq<bv32>, buf: seq<bv32>, stride: nat, image: seq<seq<bv32>>, w: nat, rows: set<int>)
    requires Shaped(buf, stride, image, w)
  {
    && |r| == |buf|
    && forall y, x :: 0 <= y < |image| && 0 <= x < stride ==>
         CellIn(r, stride, y, x) == if y in rows && x < w then image[y][x] else CellIn(buf, stride, y, x)
  }

  /** Cell (y, x) of a buffer of rows `stride` wide, 0 outside it. */
  function CellIn(b: seq<bv32>, stride: nat, y: int, x: int): bv32 {
    if 0 <= y * stride + x < |b| then b[y * stride + x] else 0
  }

  /** Whatever the order in which rows are written, and however often, each
      cell ends up holding what `Painted` says for the set of rows written. */
  lemma {:induction false} ApplyRowsPaints(buf: seq<bv32>, stride: nat, image: seq<seq<bv32>>, w: nat, order: seq<int>)
    requires Shaped(buf, stride, image, w)
    requires forall k :: 0 <= k < |order| ==> 0 <= order[k] < |image|
    ensures Painted(ApplyRows(buf, stride, image, w, order), buf, stride, image, w, set k | 0 <= k < |order| :: order[k])
    decreases |order|
  {
    var rows := set k | 0 <= k < |order| :: order[k];
    var r := ApplyRows(buf, stride, image, w, order);
    if order != [] {
      var y0 := order[|order| - 1];
      var front := order[..|order| - 1];
      var prevRows := set k | 0 <= k < |front| :: front[k];
      var prev := ApplyRows(buf, stride, image, w, front);
      ApplyRowsPaints(buf, stride, image, w, front);
      assert rows == prevRows + {y0} by {
        forall v | v in rows ensures v in prevRows + {y0} {
          var k :| 0 <= k < |order| && order[k] == v;
          if k < |front| { assert front[k] == v; }
        }
        forall v | v in prevRows ensures v in rows {
          var k :| 0 <= k < |front| && front[k] == v;
          assert order[k] == v;
        }
      }
      MulMono(y0 + 1, |image|, stride);
      assert r == WriteRow(prev, stride, y0, image[y0]);
      forall y, x | 0 <= y < |image| && 0 <= x < stride
        ensures CellIn(r, stride, y, x) == if y in rows && x < w then image[y][x] else CellIn(buf, stride, y, x)
      {
        CellInSurface(stride * 4, stride, |image|, y, x);
        if y == y0 && x < w {
          assert CellIn(r, stride, y, x) == r[y * stride + x] == image[y0][x];
        } else {
          var i := y * stride + x;
          if y0 * stride <= i < y0 * stride + w {
            var x' := i - y0 * stride;
            CellsDistinct(stride * 4, stride, y, x, y0, x');
            assert false;
          }
          assert r[i] == prev[i];
        }
      }
    }
  }

  /** The surface a pass leaves behind does not depend on the order in
      which workers wrote their rows: any two orders covering the same rows
      give the same buffer. */
  lemma RowOrderIrrelevant(buf: seq<bv32>, stride: nat, image: seq<seq<bv32>>, w: nat, o1: seq<int>, o2: seq<int>)
    requires Shaped(buf, stride, image, w)
    requires forall k :: 0 <= k < |o1| ==> 0 <= o1[k] < |image|
    requires forall k :: 0 <= k < |o2| ==> 0 <= o2[k] < |image|
    requires (set k | 0 <= k < |o1| :: o1[k]) == (set k | 0 <= k < |o2| :: o2[k])
    ensures ApplyRows(buf, stride, image, w, o1) == ApplyRows(buf, stride, image, w, o2)
  {
    var r1 := ApplyRows(buf, stride, image, w, o1);
    var r2 := ApplyRows(buf, stride, image, w, o2);
    ApplyRowsPaints(buf, stride, image, w, o1);
    ApplyRowsPaints(buf, stride, image, w, o2);
    forall i | 0 <= i < |buf|
      ensures r1[i] == r2[i]
    {
      var y, x := Decompose(i, stride, |image|);
      assert CellIn(r1, stride, y, x) == r1[i];
      assert CellIn(r2, stride, y, x) == r2[i];
    }
  }

  /** Every cell index names one row and one column. */
  lemma Decompose(i: int, stride: nat, h: nat) returns (y: int, x: int)
    requires 1 <= stride && 0 <= i < h * stride
    ensures 0 <= y < h && 0 <= x < stride && i == y * stride + x
  {
    y := i / stride;
    x := i % stride;
    if y >= h {
      MulMono(h, y, stride);
    }
  }
}

=== FILE: kernel.dfy ===
/** The per-pixel escape-time computation: iterate z <- z^2 + c until
    |z|^2 > 4 or the iteration cap is reached, with Julia and Mandelbrot
    modes differing only in which of z0 and c is the sampled point. */
module Kernel {
  import opened Types
  import Colors

  /** One iteration z^2 + c. Squaring squares the modulus, so from c = 0
      the new |z|^2 is the square of the old one. */
  function Iter(z: Complex, c: Complex): (r: Complex)
    ensures c == Complex(0.0, 0.0) ==> SqMod(r) == SqMod(z) * SqMod(z)
  {
    var a, b := z.re, z.im;
    assert (a * a - b * b) * (a * a - b * b) + (2.0 * a * b) * (2.0 * a * b) == (a * a + b * b) * (a * a + b * b);
    Complex(a * a - b * b + c.re, 2.0 * a * b + c.im)
  }

  /** |z|^2. */
  function SqMod(z: Complex): real {
    z.re * z.re + z.im * z.im
  }

  /** The k-th iterate of z0 under z^2 + c (the 0-th is z0 itself). */
  function Orbit(z0: Complex, c: Complex, k: nat): Complex
    decreases k
  {
    if k == 0 then z0 else Orbit(Iter(z0, c), c, k - 1)
  }

  /** What the escape loop leaves behind: its counter `it`, how many times
      its body ran, and the last iterate it computed. */
  datatype Escape = Escape(it: int, runs: nat, z: Complex)

  /** The do-while loop of the kernel, entered with counter `it` and current
      iterate `z`: the body computes the next iterate; the loop stops when it
      has |z|^2 > 4 without counting it, or else counts it and stops when the
      counter reaches `maxIt`. */
  function EscapeLoop(z: Complex, c: Complex, it: int, maxIt: int): (r: Escape)
    ensures r.runs >= 1
    ensures r.it == it + r.runs - 1 || r.it == it + r.runs
    ensures it < maxIt ==> r.it <= maxIt && r.runs <= maxIt - it
    decreases maxIt - it
  {
    var z' := Iter(z, c);
    if SqMod(z') <= 4.0 && it + 1 < maxIt then
      var r := EscapeLoop(z', c, it + 1, maxIt);
      Escape(r.it, r.runs + 1, r.z)
    else if SqMod(z') <= 4.0 then Escape(it + 1, 1, z')
    else Escape(it, 1, z')
  }

  /** The loop as the kernel runs it, from counter 0. */
  function Kernel(z0: Complex, c: Complex, maxIt: int): Escape {
    EscapeLoop(z0, c, 0, maxIt)
  }

  /** The loop against the orbit: its last iterate is orbit element `runs`,
      every earlier iterate stayed within radius 2, the counter lags the
      runs exactly when the last iterate escaped, and a loop that ended
      inside the radius ended on the cap (or after one pass if the cap was
      already reached). */
  lemma {:induction false} EscapeLoopFollowsOrbit(z: Complex, c: Complex, it: int, maxIt: int)
    ensures var r := EscapeLoop(z, c, it, maxIt);
            && r.z == Orbit(z, c, r.runs)
            && (forall k :: 1 <= k < r.runs ==> SqMod(Orbit(z, c, k)) <= 4.0)
            && (SqMod(r.z) > 4.0 <==> r.it == it + r.runs - 1)
            && (SqMod(r.z) <= 4.0 ==> r.it == if it + 1 < maxIt then maxIt else it + 1)
    decreases maxIt - it
  {
    var z' := Iter(z, c);
    var r := EscapeLoop(z, c, it, maxIt);
    if SqMod(z') <= 4.0 && it + 1 < maxIt {
      var r' := EscapeLoop(z', c, it + 1, maxIt);
      EscapeLoopFollowsOrbit(z', c, it + 1, maxIt);
      assert r == Escape(r'.it, r'.runs + 1, r'.z);
      assert Orbit(z, c, r.runs) == Orbit(z', c, r'.runs);
      forall k | 1 <= k < r.runs
        ensures SqMod(Orbit(z, c, k)) <= 4.0
      {
        assert Orbit(z, c, k) == Orbit(z', c, k - 1);
        if k > 1 {
          assert 1 <= k - 1 < r'.runs;
        } else {
          assert Orbit(z', c, 0) == z';
        }
      }
    } else {
      assert Orbit(z, c, 1) == Orbit(z', c, 0) == z';
    }
  }

  /** The interior test of the kernel: with a cap of at least 1, the counter
      ends on the cap exactly when none of the first `maxIt` iterates left
      radius 2; the loop body ran at most `maxIt` times and the counter is
      between 0 and the cap. */
  lemma InteriorIffBounded(z0: Complex, c: Complex, maxIt: int)
    requires maxIt >= 1
    ensures 1 <= Kernel(z0, c, maxIt).runs <= maxIt
    ensures 0 <= Kernel(z0, c, maxIt).it <= maxIt
    ensures Kernel(z0, c, maxIt).it == maxIt <==> forall k :: 1 <= k <= maxIt ==> SqMod(Orbit(z0, c, k)) <= 4.0
  {
    var r := Kernel(z0, c, maxIt);
    EscapeLoopFollowsOrbit(z0, c, 0, maxIt);
    if r.it == maxIt {
      assert SqMod(r.z) <= 4.0;
      assert r.runs == maxIt;
    } else {
      assert 1 <= r.runs <= maxIt && SqMod(Orbit(z0, c, r.runs)) > 4.0;
    }
  }

  /** When the loop escapes, the counter names the escape: iterate
      `it + 1` is the first one outside radius 2. */
  lemma EscapeIsFirst(z0: Complex, c: Complex, maxIt: int)
    requires maxIt >= 1
    requires Kernel(z0, c, maxIt).it < maxIt
    ensures var n := Kernel(z0, c, maxIt).it + 1;
            && SqMod(Orbit(z0, c, n)) > 4.0
            && forall k :: 1 <= k < n ==> SqMod(Orbit(z0, c, k)) <= 4.0
  {
    EscapeLoopFollowsOrbit(z0, c, 0, maxIt);
  }

  /** A first iterate outside radius 2 stops the loop with counter 0 after
      one pass, whatever the cap. */
  lemma FirstIterateEscapes(z0: Complex, c: Complex, maxIt: int)
    requires SqMod(Iter(z0, c)) > 4.0
    ensures Kernel(z0, c, maxIt) == Escape(0, 1, Iter(z0, c))
  {
  }

  /** `c = 10 + 10i` in Mandelbrot mode from z0 = 0 escapes on the first pass. */
  lemma FarPointEscapesAtOnce(maxIt: int)
    ensures Kernel(Zero, Complex(10.0, 10.0), maxIt).it == 0
    ensures Kernel(Zero, Complex(10.0, 10.0), maxIt).runs == 1
  {
    FirstIterateEscapes(Zero, Complex(10.0, 10.0), maxIt);
  }

  /** The orbit of 0 under z^2 + 0 never leaves 0. */
  lemma {:induction false} OriginOrbitFixed(k: nat)
    ensures Orbit(Zero, Zero, k) == Zero
    ensures SqMod(Orbit(Zero, Zero, k)) == 0.0
    decreases k
  {
    if k > 0 {
      assert Iter(Zero, Zero) == Zero;
      OriginOrbitFixed(k - 1);
    }
  }

  /** Which of z0 and c is the sampled point: Julia mode (any non-zero flag)
      fixes c to the initial value and starts from the point; Mandelbrot
      mode starts from the initial value with the point as c. */
  datatype Seeds = Seeds(z0: Complex, c: Complex)

  function SeedsFor(julia: int, init: Complex, point: Complex): (s: Seeds)
    ensures julia != 0 ==> s.c == init && s.z0 == point
    ensures julia == 0 ==> s.z0 == init && s.c == point
  {
    if julia != 0 then Seeds(point, init) else Seeds(init, point)
  }

  /** The escape result of a pixel: the kernel run from the seeds of the
      mode, so its last iterate lies on that orbit, and with a cap of at
      least 1 the pixel reaches the cap exactly when none of the first `maxIt`
      iterates left radius 2. */
  function PixelEscape(julia: int, init: Complex, point: Complex, maxIt: int): (r: Escape)
    ensures r.runs >= 1
    ensures r.z == Orbit(SeedsFor(julia, init, point).z0, SeedsFor(julia, init, point).c, r.runs)
    ensures maxIt >= 1 ==>
              (r.it == maxIt <==> forall k :: 1 <= k <= maxIt ==>
                 SqMod(Orbit(SeedsFor(julia, init, point).z0, SeedsFor(julia, init, point).c, k)) <= 4.0)
  {
    var s := SeedsFor(julia, init, point);
    EscapeLoopFollowsOrbit(s.z0, s.c, 0, maxIt);
    if maxIt >= 1 then
      InteriorIffBounded(s.z0, s.c, maxIt);
      Kernel(s.z0, s.c, maxIt)
    else
      Kernel(s.z0, s.c, maxIt)
  }

  /** The role swap: Julia mode for constant `a` at point `p` runs the same
      loop as Mandelbrot mode from `p` at point `a`. */
  lemma JuliaMandelbrotSwap(a: Complex, p: Complex, julia: int, maxIt: int)
    requires julia != 0
    ensures PixelEscape(julia, a, p, maxIt) == PixelEscape(0, p, a, maxIt)
  {
  }

  /** The packed pixel for an escape result: 0 (black) for a point that
      reached the cap, otherwise the table entry of its smoothed value.
      The smoothing formula itself is a parameter. */
  function Shade(e: Escape, maxIt: int, smooth: real, table: seq<bv32>): (p: bv32)
    requires |table| == Colors.NbColor
    ensures e.it == maxIt ==> p == 0
    ensures e.it != maxIt ==> p == table[Colors.ColorIndex(smooth)]
  {
    if e.it == maxIt then 0 else table[Colors.ColorIndex(smooth)]
  }

  /** Mandelbrot mode from z0 = 0 at the origin is interior for every cap
      of at least 1: the pixel is black. */
  lemma OriginInterior(init: Complex, point: Complex, maxIt: int, smooth: real, table: seq<bv32>)
    requires init == Zero && point == Zero
    requires maxIt >= 1 && |table| == Colors.NbColor
    ensures PixelEscape(0, init, point, maxIt).it == maxIt
    ensures Shade(PixelEscape(0, init, point, maxIt), maxIt, smooth, table) == 0
  {
    forall k | 1 <= k <= maxIt
      ensures SqMod(Orbit(init, point, k)) <= 4.0
    {
      OriginOrbitFixed(k);
    }
    InteriorIffBounded(init, point, maxIt);
    var e := Kernel(init, point, maxIt);
    assert SeedsFor(0, init, point) == Seeds(init, point);
    assert PixelEscape(0, init, point, maxIt) == e;
  }
}

=== FILE: options.dfy ===
/** The program's option store: one record with a default value per field,
    a getter and a setter per field, and the validator run once after the
    command line has been read. */
module Options {
  import opened Types
  import opened Results

  const DimensionMin: Dimension := Dimension(128, 128)
  const NbThreadsMin: int := 1
  const NbMaxItMin: int := 4

  /** The store. Boolean options are C ints: zero is off, anything else is on. */
  datatype Options = Options(
    dimension: Dimension,
    bounds: Bounds,
    init: Complex,
    fullscreen: int,
    nbThreads: int,
    nbMaxIt: int,
    julia: int,
    photoMode: int,
    pictureName: string,
    captureMode: int,
    captureZoomSpeed: real,
    captureNbFrames: int)

  const Defaults: Options := Options(
    dimension := Dimension(800, 600),
    bounds := Bounds(-2.0, 2.0, -1.5, 1.5),
    init := Zero,
    fullscreen := 0,
    nbThreads := 2,
    nbMaxIt := 32,
    julia := 0,
    photoMode := 0,
    pictureName := "mandel",
    captureMode := 0,
    captureZoomSpeed := 100.0,
    captureNbFrames := 150)

  /** The twelve fields, one per setter/getter pair. */
  datatype Field =
    | DimensionField | BoundsField | InitField | FullscreenField
    | NbThreadsField | NbMaxItField | JuliaField | PhotoModeField
    | PictureNameField | CaptureModeField | CaptureZoomSpeedField | CaptureNbFramesField

  /** A value of any field's type. */
  datatype Value =
    | DimensionValue(d: Dimension)
    | BoundsValue(b: Bounds)
    | ComplexValue(c: Complex)
    | IntValue(n: int)
    | RealValue(x: real)
    | NameValue(s: string)

  /** Whether a value has the type of a field. */
  predicate Fits(f: Field, v: Value) {
    match f
    case DimensionField => v.DimensionValue?
    case BoundsField => v.BoundsValue?
    case InitField => v.ComplexValue?
    case PictureNameField => v.NameValue?
    case CaptureZoomSpeedField => v.RealValue?
    case _ => v.IntValue?
  }

  /** The getters. */
  function Get(o: Options, f: Field): (v: Value)
    ensures Fits(f, v)
  {
    match f
    case DimensionField => DimensionValue(o.dimension)
    case BoundsField => BoundsValue(o.bounds)
    case InitField => ComplexValue(o.init)
    case FullscreenField => IntValue(o.fullscreen)
    case NbThreadsField => IntValue(o.nbThreads)
    case NbMaxItField => IntValue(o.nbMaxIt)
    case JuliaField => IntValue(o.julia)
    case PhotoModeField => IntValue(o.photoMode)
    case PictureNameField => NameValue(o.pictureName)
    case CaptureModeField => IntValue(o.captureMode)
    case CaptureZoomSpeedField => RealValue(o.captureZoomSpeed)
    case CaptureNbFramesField => IntValue(o.captureNbFrames)
  }

  /** The setters: reading back the field gives the value set, and every
      other field reads as before. */
  function Set(o: Options, f: Field, v: Value): (r: Options)
    requires Fits(f, v)
    ensures Get(r, f) == v
    ensures forall g :: g != f ==> Get(r, g) == Get(o, g)
  {
    match f
    case DimensionField => o.(dimension := v.d)
    case BoundsField => o.(bounds := v.b)
    case InitField => o.(init := v.c)
    case FullscreenField => o.(fullscreen := v.n)
    case NbThreadsField => o.(nbThreads := v.n)
    case NbMaxItField => o.(nbMaxIt := v.n)
    case JuliaField => o.(julia := v.n)
    case PhotoModeField => o.(photoMode := v.n)
    case PictureNameField => o.(pictureName := v.s)
    case CaptureModeField => o.(captureMode := v.n)
    case CaptureZoomSpeedField => o.(captureZoomSpeed := v.x)
    case CaptureNbFramesField => o.(captureNbFrames := v.n)
  }

  /** Writing back what a getter returned leaves the store as it was. */
  lemma SetGetIdentity(o: Options, f: Field)
    ensures Set(o, f, Get(o, f)) == o
  {
  }

  /** The store is determined by its twelve getters. */
  lemma {:induction false} GettersDetermineStore(o: Options, p: Options)
    requires forall f :: Get(o, f) == Get(p, f)
    ensures o == p
  {
    assert Get(o, DimensionField) == Get(p, DimensionField);
    assert Get(o, BoundsField) == Get(p, BoundsField);
    assert Get(o, InitField) == Get(p, InitField);
    assert Get(o, FullscreenField) == Get(p, FullscreenField);
    assert Get(o, NbThreadsField) == Get(p, NbThreadsField);
    assert Get(o, NbMaxItField) == Get(p, NbMaxItField);
    assert Get(o, JuliaField) == Get(p, JuliaField);
    assert Get(o, PhotoModeField) == Get(p, PhotoModeField);
    assert Get(o, PictureNameField) == Get(p, PictureNameField);
    assert Get(o, CaptureModeField) == Get(p, CaptureModeField);
    assert Get(o, CaptureZoomSpeedField) == Get(p, CaptureZoomSpeedField);
    assert Get(o, CaptureNbFramesField) == Get(p, CaptureNbFramesField);
  }

  /** The validator's error messages, in the order it tests them. */
  datatype CheckError =
    | WidthTooSmall
    | HeightTooSmall
    | XBoundsInverted
    | YBoundsInverted
    | TooFewThreads
    | TooFewIterations
    | BadZoomSpeed
    | BadFrameCount
    | PhotoAndCapture

  /** Position of a check in the validator's sequence. */
  function Rank(e: CheckError): nat {
    match e
    case WidthTooSmall => 0
    case HeightTooSmall => 1
    case XBoundsInverted => 2
    case YBoundsInverted => 3
    case TooFewThreads => 4
    case TooFewIterations => 5
    case BadZoomSpeed => 6
    case BadFrameCount => 7
    case PhotoAndCapture => 8
  }

  /** The condition under which each error is reported, independently of the order. */
  predicate Violates(o: Options, e: CheckError) {
    match e
    case WidthTooSmall => o.dimension.width < DimensionMin.width
    case HeightTooSmall => o.dimension.height < DimensionMin.height
    case XBoundsInverted => o.bounds.xmin >= o.bounds.xmax
    case YBoundsInverted => o.bounds.ymin >= o.bounds.ymax
    case TooFewThreads => o.nbThreads < NbThreadsMin
    case TooFewIterations => o.nbMaxIt < NbMaxItMin
    case BadZoomSpeed => o.captureZoomSpeed <= 0.0
    case BadFrameCount => o.captureNbFrames < 1
    case PhotoAndCapture => o.photoMode != 0 && o.captureMode != 0
  }

  /** Every condition the validator accepts, stated as one predicate. */
  predicate Valid(o: Options) {
    && o.dimension.width >= 128 && o.dimension.height >= 128
    && Ordered(o.bounds)
    && o.nbThreads >= 1
    && o.nbMaxIt >= 4
    && o.captureZoomSpeed > 0.0
    && o.captureNbFrames >= 1
    && (o.photoMode == 0 || o.captureMode == 0)
  }

  /** The validator. It passes exactly when no condition is violated; when it
      fails, it reports a violated condition with no violated condition
      tested before it. */
  function Check(o: Options): (r: Outcome<CheckError>)
    ensures r.Fail? ==> Violates(o, r.error)
    ensures r.Pass? <==> forall e :: !Violates(o, e)
    ensures r.Pass? <==> Valid(o)
    ensures r.Fail? ==> forall e :: Rank(e) < Rank(r.error) ==> !Violates(o, e)
  {
    if o.dimension.width < DimensionMin.width then
      assert Violates(o, WidthTooSmall);
      Fail(WidthTooSmall)
    else if o.dimension.height < DimensionMin.height then
      assert Violates(o, HeightTooSmall);
      Fail(HeightTooSmall)
    else if o.bounds.xmin >= o.bounds.xmax then
      assert Violates(o, XBoundsInverted);
      Fail(XBoundsInverted)
    else if o.bounds.ymin >= o.bounds.ymax then
      assert Violates(o, YBoundsInverted);
      Fail(YBoundsInverted)
    else if o.nbThreads < NbThreadsMin then
      assert Violates(o, TooFewThreads);
      Fail(TooFewThreads)
    else if o.nbMaxIt < NbMaxItMin then
      assert Violates(o, TooFewIterations);
      Fail(TooFewIterations)
    else if o.captureZoomSpeed <= 0.0 then
      assert Violates(o, BadZoomSpeed);
      Fail(BadZoomSpeed)
    else if o.captureNbFrames < 1 then
      assert Violates(o, BadFrameCount);
      Fail(BadFrameCount)
    else if o.photoMode != 0 && o.captureMode != 0 then
      assert Violates(o, PhotoAndCapture);
      Fail(PhotoAndCapture)
    else Pass
  }

  /** A store the validator accepted never has photo and capture both on. */
  lemma CheckedModesExclusive(o: Options)
    requires Check(o).Pass?
    ensures o.photoMode == 0 || o.captureMode == 0
  {
    assert !Violates(o, PhotoAndCapture);
  }

  /** The defaults meet every minimum and pass the validator. */
  lemma DefaultsValid()
    ensures Defaults.dimension.width >= DimensionMin.width
    ensures Defaults.dimension.height >= DimensionMin.height
    ensures Ordered(Defaults.bounds)
    ensures Defaults.nbThreads >= NbThreadsMin && Defaults.nbMaxIt >= NbMaxItMin
    ensures Defaults.captureZoomSpeed > 0.0 && Defaults.captureNbFrames >= 1
    ensures Defaults.photoMode == 0 && Defaults.captureMode == 0
    ensures Check(Defaults) == Pass
  {
  }
}

=== FILE: results.dfy ===
/** Failure-compatible result type used for the program's error paths
    (the source reports the error and exits; the model returns it). */
module Results {

  datatype Result<+T, +E> = Ok(value: T) | Err(error: E) {

    predicate IsFailure() {
      Err?
    }

    function PropagateFailure<U>(): Result<U, E>
      requires Err?
    {
      Err(error)
    }

    function Extract(): T
      requires Ok?
    {
      value
    }
  }

  datatype Option<+T> = None | Some(value: T)

  /** A check that either passes or names the first violated condition. */
  datatype Outcome<+E> = Pass | Fail(error: E)
}

=== FILE: rowclaim.dfy ===
/** The render pass protocol of the worker pool, with every mutex-protected
    critical section taken as one atomic step. The caller resets the two
    counters and posts one `working` permit per thread; a woken worker
    repeatedly takes the lock and either claims row `nextLine` (advancing
    it) or, when `nextLine` equals the height, counts itself finished,
    posting `waiting` if it is the last, and parks until the next permit.
    Workers are not told apart: what matters is the permit each holds. */
module RowClaim {
  import opened Results

  /** The shared pass state, plus the bookkeeping the proofs speak about. */
  datatype PassState = PassState(
    nbThreads: nat,            // size of the pool, fixed at initialisation
    height: int,               // surface height of the current pass
    nextLine: int,             // next row to claim; `height` means exhausted
    finished: int,             // permits that observed exhaustion this pass
    permits: nat,              // `working` semaphore count
    idle: nat,                 // woken workers about to take the lock
    computing: multiset<int>,  // rows claimed and being computed outside the lock
    claimed: multiset<int>,    // rows claimed this pass
    written: seq<int>,         // rows computed this pass, in completion order
    waiting: nat,              // `waiting` semaphore count
    posts: nat,                // posts on `waiting` this pass
    inPass: bool)              // the caller is inside `render`

  datatype Action =
    | Render(h: nat)           // caller: reset counters, post `nbThreads` permits
    | Wake                     // worker: consume one permit
    | Lock                     // worker: critical section, claim or exhaust
    | FinishRow(y: int)        // worker: row `y` computed and written
    | Return                   // caller: consume the `waiting` post and return

  /** The pool after initialisation: every worker parked on `working`. */
  function Init(nbThreads: nat): (s: PassState)
    ensures Inv(s) <==> nbThreads >= 1
    ensures !s.inPass && s.nbThreads == nbThreads
  {
    PassState(nbThreads, 0, 0, 0, 0, 0, multiset{}, multiset{}, [], 0, 0, false)
  }

  /** One atomic step, or None when the actor would block. */
  function Next(s: PassState, a: Action): (r: Option<PassState>)
    ensures a.Render? ==> (r.Some? <==> !s.inPass)
    ensures a.Wake? ==> (r.Some? <==> s.permits > 0)
    ensures a.Lock? ==> (r.Some? <==> s.idle > 0)
    ensures a.FinishRow? ==> (r.Some? <==> a.y in s.computing)
    ensures a.Return? ==> (r.Some? <==> s.inPass && s.waiting > 0)
    ensures r.Some? ==> r.value.nbThreads == s.nbThreads
    ensures r.Some? && !a.Render? ==> r.value.height == s.height && r.value.claimed <= s.claimed + multiset{s.nextLine}
  {
    match a
    case Render(h) =>
      if s.inPass then None
      else Some(s.(height := h, nextLine := 0, finished := 0, permits := s.permits + s.nbThreads,
                   claimed := multiset{}, written := [], posts := 0, inPass := true))
    case Wake =>
      if s.permits == 0 then None
      else Some(s.(permits := s.permits - 1, idle := s.idle + 1))
    case Lock =>
      if s.idle == 0 then None
      else if s.nextLine == s.height then
        Some(s.(finished := s.finished + 1, idle := s.idle - 1,
                waiting := if s.finished + 1 == s.nbThreads then s.waiting + 1 else s.waiting,
                posts := if s.finished + 1 == s.nbThreads then s.posts + 1 else s.posts))
      else
        Some(s.(nextLine := s.nextLine + 1, idle := s.idle - 1,
                computing := s.computing + multiset{s.nextLine},
                claimed := s.claimed + multiset{s.nextLine}))
    case FinishRow(y) =>
      if y !in s.computing then None
      else Some(s.(computing := s.computing - multiset{y}, written := s.written + [y], idle := s.idle + 1))
    case Return =>
      if !s.inPass || s.waiting == 0 then None
      else Some(s.(waiting := s.waiting - 1, inPass := false))
  }

  /** The rows 0 .. n-1, once each. */
  function RowsBelow(n: int): multiset<int>
    decreases n
  {
    if n <= 0 then multiset{} else RowsBelow(n - 1) + multiset{n - 1}
  }

  lemma {:induction false} RowsBelowOnce(n: int, y: int)
    ensures RowsBelow(n)[y] == if 0 <= y < n then 1 else 0
    decreases n
  {
    if n > 0 {
      RowsBelowOnce(n - 1, y);
    }
  }

  /** The protocol invariant. */
  predicate Inv(s: PassState) {
    && s.nbThreads >= 1
    && 0 <= s.nextLine <= s.height
    && s.claimed == RowsBelow(s.nextLine)
    && s.claimed == multiset(s.written) + s.computing
    && 0 <= s.finished <= s.nbThreads
    && (s.finished > 0 ==> s.nextLine == s.height)
    && (s.inPass ==> s.permits + s.idle + |s.computing| + s.finished == s.nbThreads)
    && (s.inPass ==> s.waiting == if s.finished == s.nbThreads then 1 else 0)
    && s.posts == (if s.finished == s.nbThreads then 1 else 0)
    && (!s.inPass ==> s.permits == 0 && s.idle == 0 && s.computing == multiset{} && s.waiting == 0)
  }

  lemma InitInv(n: nat)
    requires n >= 1
    ensures Inv(Init(n))
  {
  }

  lemma RenderKeepsInv(s: PassState, h: nat)
    requires Inv(s) && Next(s, Render(h)).Some?
    ensures Inv(Next(s, Render(h)).value)
  {
    var t := Next(s, Render(h)).value;
    assert t.claimed == RowsBelow(0);
    assert multiset(t.written) + t.computing == multiset{};
  }

  lemma LockKeepsInv(s: PassState)
    requires Inv(s) && Next(s, Lock).Some?
    ensures Inv(Next(s, Lock).value)
  {
    var t := Next(s, Lock).value;
    if s.nextLine != s.height {
      assert |t.computing| == |s.computing| + 1;
      assert t.claimed == multiset(t.written) + t.computing;
    }
  }

  lemma FinishRowKeepsInv(s: PassState, y: int)
    requires Inv(s) && Next(s, FinishRow(y)).Some?
    ensures Inv(Next(s, FinishRow(y)).value)
  {
    var t := Next(s, FinishRow(y)).value;
    assert multiset(t.written) == multiset(s.written) + multiset{y};
    assert t.computing + multiset{y} == s.computing;
    assert t.claimed == multiset(t.written) + t.computing;
    assert |t.computing| + 1 == |s.computing|;
  }

  /** Every step keeps the invariant. */
  lemma NextPreservesInv(s: PassState, a: Action)
    requires Inv(s)
    requires Next(s, a).Some?
    ensures Inv(Next(s, a).value)
  {
    match a
    case Render(h) => RenderKeepsInv(s, h);
    case Wake =>
    case Lock => LockKeepsInv(s);
    case FinishRow(y) => FinishRowKeepsInv(s, y);
    case Return =>
  }

  /** An action sequence applied step by step; None if some step would block. */
  function Run(s: PassState, acts: seq<Action>): Option<PassState>
    decreases |acts|
  {
    if acts == [] then Some(s)
    else match Next(s, acts[0])
      case None => None
      case Some(t) => Run(t, acts[1..])
  }

  /** Every state reachable from a pool of at least one thread satisfies the invariant. */
  lemma {:induction false} RunKeepsInv(s: PassState, acts: seq<Action>)
    requires Inv(s)
    requires Run(s, acts).Some?
    ensures Inv(Run(s, acts).value)
    decreases |acts|
  {
    if acts != [] {
      NextPreservesInv(s, acts[0]);
      RunKeepsInv(Next(s, acts[0]).value, acts[1..]);
    }
  }

  /** Rows claimed so far, in any reachable state: each of 0 .. nextLine-1
      exactly once, nothing else, and never the sentinel `height`. */
  lemma ClaimedExactlyOnce(n: nat, acts: seq<Action>, y: int)
    requires n >= 1
    requires Run(Init(n), acts).Some?
    ensures var s := Run(Init(n), acts).value;
            && 0 <= s.nextLine <= s.height
            && s.claimed[y] == (if 0 <= y < s.nextLine then 1 else 0)
            && s.claimed[s.height] == 0
            && 0 <= s.finished <= s.nbThreads
  {
    InitInv(n);
    RunKeepsInv(Init(n), acts);
    var s := Run(Init(n), acts).value;
    RowsBelowOnce(s.nextLine, y);
    RowsBelowOnce(s.nextLine, s.height);
  }

  /** The critical section: below the sentinel it hands out row `nextLine`,
      which nobody held, and advances; at the sentinel it counts one more
      finished permit, and it posts `waiting` exactly when that count
      reaches the pool size. */
  lemma LockStep(s: PassState)
    requires Inv(s) && s.inPass && s.idle > 0
    ensures var t := Next(s, Lock).value;
            if s.nextLine < s.height then
              && s.claimed[s.nextLine] == 0 && t.claimed[s.nextLine] == 1
              && t.nextLine == s.nextLine + 1 && t.finished == s.finished
              && t.posts == s.posts && t.waiting == s.waiting
            else
              && t.nextLine == s.nextLine && t.claimed == s.claimed
              && t.finished == s.finished + 1 <= s.nbThreads
              && (t.posts == s.posts + 1 <==> t.finished == s.nbThreads)
              && (t.posts == s.posts <==> t.finished < s.nbThreads)
  {
    RowsBelowOnce(s.nextLine, s.nextLine);
    var t := Next(s, Lock).value;
    if s.nextLine < s.height {
      assert t.claimed == s.claimed + multiset{s.nextLine};
    }
  }

  /** When the last permit observes exhaustion the pass is complete: no
      permit is pending, no worker is awake or computing, `waiting` has been
      posted once, and every row 0 .. height-1 was written exactly once. */
  lemma PassComplete(s: PassState, y: int)
    requires Inv(s) && s.inPass && s.finished == s.nbThreads
    ensures s.permits == 0 && s.idle == 0 && s.computing == multiset{}
    ensures s.waiting == 1 && s.posts == 1
    ensures s.nextLine == s.height
    ensures multiset(s.written) == RowsBelow(s.height)
    ensures multiset(s.written)[y] == if 0 <= y < s.height then 1 else 0
  {
    assert |s.computing| == 0;
    RowsBelowOnce(s.height, y);
  }

  /** The caller returns from `render` only after the pass is complete. */
  lemma ReturnOnlyWhenComplete(s: PassState, y: int)
    requires Inv(s) && Next(s, Return).Some?
    ensures s.finished == s.nbThreads
    ensures var t := Next(s, Return).value;
            && !t.inPass && t.posts == 1
            && multiset(t.written)[y] == if 0 <= y < t.height then 1 else 0
  {
    PassComplete(s, y);
  }

  /** No deadlock: inside a pass some actor can always move, and it is the
      caller exactly when every permit has observed exhaustion. */
  lemma CanProgress(s: PassState) returns (a: Action)
    requires Inv(s) && s.inPass
    ensures Next(s, a).Some?
    ensures a == Return <==> s.finished == s.nbThreads
  {
    if s.permits > 0 {
      a := Wake;
    } else if s.idle > 0 {
      a := Lock;
    } else if s.finished < s.nbThreads {
      assert |s.computing| > 0;
      if forall r :: s.computing[r] == 0 {
        assert false;
      }
      var y :| y in s.computing;
      a := FinishRow(y);
    } else {
      a := Return;
    }
  }

  /** A measure of the work left in a pass. */
  function Work(s: PassState): int {
    2 * s.permits + s.idle + 2 * |s.computing| + 2 * (s.height - s.nextLine) + (if s.inPass then 1 else 0)
  }

  /** Every step inside a pass strictly decreases the work left, which is
      never negative: a pass ends after at most 2 * nbThreads + 2 * height + 1
      steps from its start. */
  lemma StepsDecreaseWork(s: PassState, a: Action)
    requires Inv(s) && s.inPass && Next(s, a).Some?
    ensures Work(s) >= 0
    ensures Work(Next(s, a).value) < Work(s)
  {
    if a.FinishRow? {
      var t := Next(s, a).value;
      assert t.computing + multiset{a.y} == s.computing;
    }
  }

  lemma PassStartWork(s: PassState, h: nat)
    requires Inv(s)
    requires Next(s, Render(h)).Some?
    ensures Work(Next(s, Render(h)).value) == 2 * s.nbThreads + 2 * h + 1
  {
  }

  /** Without the validator's lower bound, a pool of zero threads never
      posts `waiting`: after `render` starts, no actor can move. */
  lemma ZeroThreadsDeadlock(h: nat, a: Action)
    ensures Next(Init(0), Render(h)).Some?
    ensures Next(Next(Init(0), Render(h)).value, a) == None
  {
  }
}

=== FILE: session.dfy ===
/** What the program does once the options are read: choose photo,
    capture or window mode, and produce the sequence of renders and saved
    pictures that mode calls for. The surface itself is left abstract: a
    render is named by the view it draws, a save by its file name. */
module Session {
  import opened Types
  import Options
  import Decimal
  import View

  /** The file a picture is saved to: the picture name, the frame number
      in decimal, then ".bmp". */
  function FrameName(stem: string, i: int): (name: string)
    ensures |name| > |stem| + 4
    ensures name[..|stem|] == stem && name[|name| - 4..] == ".bmp"
  {
    stem + Decimal.IntToDecimal(i) + ".bmp"
  }

  /** Two frames of one run never share a file. */
  lemma FrameNamesDistinct(stem: string, i: int, j: int)
    requires i != j
    ensures FrameName(stem, i) != FrameName(stem, j)
  {
    if FrameName(stem, i) == FrameName(stem, j) {
      var a := FrameName(stem, i);
      var di := Decimal.IntToDecimal(i);
      var dj := Decimal.IntToDecimal(j);
      assert a[|stem|..|a| - 4] == di;
      assert a[|stem|..|a| - 4] == dj;
      Decimal.IntToDecimalInjective(i, j);
    }
  }

  /** One observable step of a session. */
  datatype Effect = Render(view: View.View) | Save(name: string)

  /** The three ways a session runs. */
  datatype Mode = Photo | Capture | Window

  /** Photo mode is tested first, then capture mode; otherwise a window
      opens. */
  function ModeOf(o: Options.Options): (m: Mode)
    ensures m == Photo <==> o.photoMode != 0
    ensures m == Capture <==> o.photoMode == 0 && o.captureMode != 0
  {
    if o.photoMode != 0 then Photo
    else if o.captureMode != 0 then Capture
    else Window
  }

  /** For validated options the order of the two tests does not matter:
      photo and capture mode are never both on. */
  lemma ModeOrderIrrelevant(o: Options.Options)
    requires Options.Check(o).Pass?
    ensures ModeOf(o) == Capture <==> o.captureMode != 0
  {
    Options.CheckedModesExclusive(o);
  }

  /** The bounds after `i` zooms by `f`. */
  function ZoomN(b: Bounds, f: real, i: nat): (r: Bounds)
    requires f != 0.0
    ensures Centre2(r) == Centre2(b)
    ensures f > 1.0 && Ordered(b) ==> Ordered(r) && Width(r) <= Width(b) && Height(r) <= Height(b)
    ensures f > 1.0 && Ordered(b) && i > 0 ==> Width(r) < Width(b) && Height(r) < Height(b)
  {
    if i == 0 then b
    else
      var prev := ZoomN(b, f, i - 1);
      ZoomStepShrinks(prev, f);
      View.Zoom(prev, f)
  }

  /** One zoom by a speed above 1 keeps ordered bounds ordered and shrinks
      both extents. */
  lemma ZoomStepShrinks(b: Bounds, f: real)
    requires f != 0.0
    ensures f > 1.0 && Ordered(b) ==>
              Ordered(View.Zoom(b, f)) && Width(View.Zoom(b, f)) < Width(b) && Height(View.Zoom(b, f)) < Height(b)
  {
    if f > 1.0 && Ordered(b) {
      var r := View.Zoom(b, f);
      View.ZoomKeepsOrderIff(b, f);
      assert 1.0 / f > 0.0;
      assert Width(r) == Width(b) * (1.0 - 1.0 / f) < Width(b);
      assert Height(r) == Height(b) * (1.0 - 1.0 / f) < Height(b);
    }
  }

  /** The effects of photo mode: one render of the initial view, saved as
      frame 0. */
  function PhotoEffects(o: Options.Options): (r: seq<Effect>)
    ensures r == [Render(View.Reset(o)), Save(o.pictureName + "0.bmp")]
  {
    assert Decimal.IntToDecimal(0) == "0";
    assert "0" + ".bmp" == "0.bmp";
    assert FrameName(o.pictureName, 0) == o.pictureName + ("0" + ".bmp");
    [Render(View.Reset(o)), Save(FrameName(o.pictureName, 0))]
  }

  /** Frame `i` of a capture: the initial view zoomed `i` times, rendered
      and saved under the frame's number. */
  function Frame(o: Options.Options, i: nat): (r: seq<Effect>)
    requires o.captureZoomSpeed != 0.0
    ensures |r| == 2 && r[0].Render? && r[1] == Save(o.pictureName + Decimal.IntToDecimal(i) + ".bmp")
    ensures var v := r[0].view;
            && v.init == o.init && v.nbMaxIt == o.nbMaxIt && v.julia == o.julia
            && Centre2(v.bounds) == Centre2(o.bounds)
    ensures o.captureZoomSpeed > 1.0 && Ordered(o.bounds) && i > 0 ==>
              Width(r[0].view.bounds) < Width(o.bounds) && Height(r[0].view.bounds) < Height(o.bounds)
  {
    [Render(View.Reset(o).(bounds := ZoomN(o.bounds, o.captureZoomSpeed, i))), Save(FrameName(o.pictureName, i))]
  }

  /** The first `n` frames of a capture, in order. */
  function Frames(o: Options.Options, n: nat): (r: seq<Effect>)
    requires o.captureZoomSpeed != 0.0
    ensures |r| == 2 * n
  {
    if n == 0 then [] else Frames(o, n - 1) + Frame(o, n - 1)
  }

  /** Position 2i of the capture renders frame i and position 2i + 1
      saves it, for every frame. */
  lemma {:induction false} FramesAt(o: Options.Options, n: nat, i: nat)
    requires o.captureZoomSpeed != 0.0 && i < n
    ensures Frames(o, n)[2 * i] == Render(View.Reset(o).(bounds := ZoomN(o.bounds, o.captureZoomSpeed, i)))
    ensures Frames(o, n)[2 * i + 1] == Save(FrameName(o.pictureName, i))
  {
    if i < n - 1 {
      FramesAt(o, n - 1, i);
    }
  }

  /** One more frame: the list grows by the frame's render and save, and
      the next frame's bounds are the current ones zoomed once more. */
  lemma FramesStep(o: Options.Options, i: nat)
    requires o.captureZoomSpeed != 0.0
    ensures Frames(o, i + 1) == Frames(o, i) + Frame(o, i)
    ensures ZoomN(o.bounds, o.captureZoomSpeed, i + 1) == View.Zoom(ZoomN(o.bounds, o.captureZoomSpeed, i), o.captureZoomSpeed)
  {
  }

  /** Capture mode: for each frame, render, save under the frame's number,
      then zoom by the capture speed; a frame count below 1 produces
      nothing. */
  method CaptureEffects(o: Options.Options) returns (effects: seq<Effect>)
    requires o.captureZoomSpeed != 0.0
    ensures effects == Frames(o, if o.captureNbFrames > 0 then o.captureNbFrames else 0)
  {
    var v := View.Reset(o);
    var f := o.captureZoomSpeed;
    effects := [];
    var n: nat := if o.captureNbFrames > 0 then o.captureNbFrames else 0;
    var i: nat := 0;
    while i < n
      invariant i <= n
      invariant v == View.Reset(o).(bounds := ZoomN(o.bounds, f, i))
      invariant effects == Frames(o, i)
    {
      FramesStep(o, i);
      effects := effects + [Render(v), Save(FrameName(o.pictureName, i))];
      v := v.(bounds := View.Zoom(v.bounds, f));
      i := i + 1;
    }
  }

  /** The views the window renders after the initial one: one per key
      press that refreshes, until a quit event or the escape key. */
  function WindowRenders(v: View.View, events: seq<View.Event>, o: Options.Options): (r: seq<View.View>)
    ensures forall renders: nat :: View.MainLoop(v, events, o, renders).1 == renders + |r|
    decreases |events|
  {
    if events == [] then []
    else match events[0]
      case Quit => []
      case Escape => []
      case Ignored => WindowRenders(v, events[1..], o)
      case Press(key) =>
        var out := View.TreatKeyDown(v, key, o);
        (if out.refresh then [out.view] else []) + WindowRenders(out.view, events[1..], o)
  }

  /** A whole session: what the chosen mode renders and saves. The window
      mode saves nothing and renders once before the first event. */
  method Run(o: Options.Options, events: seq<View.Event>) returns (effects: seq<Effect>)
    requires Options.Check(o).Pass?
    ensures ModeOf(o) == Photo ==> effects == [Render(View.Reset(o)), Save(o.pictureName + "0.bmp")]
    ensures ModeOf(o) == Capture ==> effects == Frames(o, o.captureNbFrames)
    ensures ModeOf(o) == Window ==> |effects| == View.MainLoop(View.Reset(o), events, o, 1).1
    ensures ModeOf(o) == Window ==> forall k :: 0 <= k < |effects| ==> effects[k].Render?
    ensures ModeOf(o) == Window ==> |effects| > 0 && effects[0] == Render(View.Reset(o))
    ensures ModeOf(o) == Window ==> |effects| == |WindowRenders(View.Reset(o), events, o)| + 1
    ensures ModeOf(o) == Window ==>
              forall k :: 0 <= k < |effects| - 1 ==> effects[k + 1] == Render(WindowRenders(View.Reset(o), events, o)[k])
  {
    assert Options.Valid(o);
    match ModeOf(o)
    case Photo =>
      effects := PhotoEffects(o);
    case Capture =>
      effects := CaptureEffects(o);
    case Window =>
      var views := WindowRenders(View.Reset(o), events, o);
      effects := [Render(View.Reset(o))] + seq(|views|, k requires 0 <= k < |views| => Render(views[k]));
  }

  /** Every picture a capture saves goes to a file of its own. */
  lemma CaptureFilesDistinct(o: Options.Options, n: nat, i: nat, j: nat)
    requires o.captureZoomSpeed != 0.0 && i < j < n
    ensures Frames(o, n)[2 * i + 1] != Frames(o, n)[2 * j + 1]
  {
    FramesAt(o, n, i);
    FramesAt(o, n, j);
    FrameNamesDistinct(o.pictureName, i, j);
  }
}

=== FILE: types.dfy ===
/** The three records shared by every part of the program. */
module Types {

  /** Surface size in pixels. */
  datatype Dimension = Dimension(width: int, height: int)

  /** A rectangle of the complex plane: real axis [xmin, xmax], imaginary axis [ymin, ymax]. */
  datatype Bounds = Bounds(xmin: real, xmax: real, ymin: real, ymax: real)

  /** A complex number; the `real` part is called `re` here because `real` is a type name. */
  datatype Complex = Complex(re: real, im: real)

  const Zero: Complex := Complex(0.0, 0.0)

  /** Both axes strictly ordered, the shape the validator demands. */
  predicate Ordered(b: Bounds) {
    b.xmin < b.xmax && b.ymin < b.ymax
  }

  function Width(b: Bounds): real {
    b.xmax - b.xmin
  }

  function Height(b: Bounds): real {
    b.ymax - b.ymin
  }

  /** Twice the centre, which avoids a division in every statement about it. */
  function Centre2(b: Bounds): Complex {
    Complex(b.xmin + b.xmax, b.ymin + b.ymax)
  }
}

=== FILE: view.dfy ===
/** The interactive view: the four render parameters the window keeps
    between key presses, the transforms each key applies to them, and the
    rule that decides when the surface is computed again. */
module View {
  import opened Types
  import opened CArith
  import Options

  /** What the window renders: bounds, init (z0 or c), the iteration cap
      and the Mandelbrot (0) / Julia (non-zero) switch. */
  datatype View = View(bounds: Bounds, init: Complex, nbMaxIt: int, julia: int)

  /** The view the options describe, restored by the reset key. */
  function Reset(o: Options.Options): (v: View)
    ensures v.bounds == o.bounds && v.init == o.init
    ensures v.nbMaxIt == o.nbMaxIt && v.julia == o.julia
  {
    View(o.bounds, o.init, o.nbMaxIt, o.julia)
  }

  // ---- pans: one twentieth of the axis extent ----

  /** Pan up: both y bounds drop by a twentieth of the height. */
  function Up(b: Bounds): (r: Bounds)
    ensures r.xmin == b.xmin && r.xmax == b.xmax
    ensures Height(r) == Height(b) && r.ymin == b.ymin - Height(b) / 20.0
  {
    var d := (b.ymax - b.ymin) / 20.0;
    b.(ymin := b.ymin - d, ymax := b.ymax - d)
  }

  /** Pan down: both y bounds rise by a twentieth of the height. */
  function Down(b: Bounds): (r: Bounds)
    ensures r.xmin == b.xmin && r.xmax == b.xmax
    ensures Height(r) == Height(b) && r.ymin == b.ymin + Height(b) / 20.0
  {
    var d := (b.ymax - b.ymin) / 20.0;
    b.(ymin := b.ymin + d, ymax := b.ymax + d)
  }

  /** Pan left: both x bounds drop by a twentieth of the width. */
  function Left(b: Bounds): (r: Bounds)
    ensures r.ymin == b.ymin && r.ymax == b.ymax
    ensures Width(r) == Width(b) && r.xmin == b.xmin - Width(b) / 20.0
  {
    var d := (b.xmax - b.xmin) / 20.0;
    b.(xmin := b.xmin - d, xmax := b.xmax - d)
  }

  /** Pan right: both x bounds rise by a twentieth of the width. */
  function Right(b: Bounds): (r: Bounds)
    ensures r.ymin == b.ymin && r.ymax == b.ymax
    ensures Width(r) == Width(b) && r.xmin == b.xmin + Width(b) / 20.0
  {
    var d := (b.xmax - b.xmin) / 20.0;
    b.(xmin := b.xmin + d, xmax := b.xmax + d)
  }

  /** Opposite pans cancel, in either order, and no pan changes whether
      the bounds are ordered. */
  lemma PansCancel(b: Bounds)
    ensures Down(Up(b)) == b && Up(Down(b)) == b
    ensures Right(Left(b)) == b && Left(Right(b)) == b
    ensures Ordered(Up(b)) == Ordered(b) && Ordered(Down(b)) == Ordered(b)
    ensures Ordered(Left(b)) == Ordered(b) && Ordered(Right(b)) == Ordered(b)
  {
  }

  // ---- zoom and unzoom about the centre ----

  /** Zoom by `f` about the centre: each bound moves inward by the extent
      over 2f, so the extents are multiplied by 1 - 1/f. No lower limit on
      the extent is enforced. */
  function Zoom(b: Bounds, f: real): (r: Bounds)
    requires f != 0.0
    ensures Centre2(r) == Centre2(b)
    ensures Width(r) == Width(b) * (1.0 - 1.0 / f)
    ensures Height(r) == Height(b) * (1.0 - 1.0 / f)
  {
    var factor := f * 2.0;
    var dx := (b.xmax - b.xmin) / factor;
    var dy := (b.ymax - b.ymin) / factor;
    Bounds(b.xmin + dx, b.xmax - dx, b.ymin + dy, b.ymax - dy)
  }

  /** Unzoom by `f` about the centre: each bound moves outward by the
      extent over f, so the extents are multiplied by 1 + 2/f. */
  function Unzoom(b: Bounds, f: real): (r: Bounds)
    requires f != 0.0
    ensures Centre2(r) == Centre2(b)
    ensures Width(r) == Width(b) * (1.0 + 2.0 / f)
    ensures Height(r) == Height(b) * (1.0 + 2.0 / f)
  {
    var dx := (b.xmax - b.xmin) / f;
    var dy := (b.ymax - b.ymin) / f;
    Bounds(b.xmin - dx, b.xmax + dx, b.ymin - dy, b.ymax + dy)
  }

  /** A zoom by `f` keeps ordered bounds ordered exactly when f > 1 or
      f < 0; for 0 < f <= 1 it collapses (f = 1) or swaps the bounds. */
  lemma ZoomKeepsOrderIff(b: Bounds, f: real)
    requires f != 0.0 && Ordered(b)
    ensures Ordered(Zoom(b, f)) <==> (f > 1.0 || f < 0.0)
  {
    var k := 1.0 - 1.0 / f;
    assert Width(Zoom(b, f)) == Width(b) * k;
    assert Height(Zoom(b, f)) == Height(b) * k;
    if f > 1.0 || f < 0.0 {
      assert k > 0.0;
    } else {
      assert k <= 0.0;
      assert Width(b) * k <= 0.0;
    }
  }

  /** Unzooming by 2(f - 1) undoes a zoom by `f`; in particular the two
      keys, which zoom and unzoom by 2, undo each other. */
  lemma UnzoomUndoesZoom(b: Bounds, f: real)
    requires f != 0.0 && f != 1.0
    ensures Unzoom(Zoom(b, f), 2.0 * (f - 1.0)) == b
  {
    var z := Zoom(b, f);
    var g := 2.0 * (f - 1.0);
    assert (z.xmax - z.xmin) / g == (b.xmax - b.xmin) / (f * 2.0) by {
      assert z.xmax - z.xmin == (b.xmax - b.xmin) * (f - 1.0) / f;
    }
    assert (z.ymax - z.ymin) / g == (b.ymax - b.ymin) / (f * 2.0) by {
      assert z.ymax - z.ymin == (b.ymax - b.ymin) * (f - 1.0) / f;
    }
  }

  /** The zoom keys: zoom by 2 then unzoom by 2 restores the bounds. */
  lemma ZoomKeysCancel(b: Bounds)
    ensures Unzoom(Zoom(b, 2.0), 2.0) == b
  {
    UnzoomUndoesZoom(b, 2.0);
  }

  /** The validator accepts a capture zoom speed of 0.5 (it only demands a
      positive speed), yet one zoom at that speed swaps the bounds of every
      ordered view, default bounds included. */
  lemma SlowZoomSpeedInvertsBounds()
    ensures Options.Check(Options.Defaults.(captureZoomSpeed := 0.5)).Pass?
    ensures !Ordered(Zoom(Options.Defaults.bounds, 0.5))
  {
    var o := Options.Defaults.(captureZoomSpeed := 0.5);
    assert Options.Valid(o);
    ZoomKeepsOrderIff(o.bounds, 0.5);
  }

  // ---- the iteration cap ----

  /** Multiply the cap by `f`, truncating toward zero. */
  function IncrIt(n: int, f: real): (r: int)
    ensures n >= 0 && f >= 1.0 ==> n <= r
    ensures n >= 0 && f >= 0.0 ==> 0 <= r && r as real <= n as real * f < r as real + 1.0
  {
    assert n >= 0 && f >= 1.0 ==> n as real * f >= n as real * 1.0;
    TruncToInt(n as real * f)
  }

  /** Divide the cap by `f`, truncating toward zero, unless the result
      would drop below the minimum, in which case the cap is kept. */
  function ReduceIt(n: int, f: real): (r: int)
    requires f != 0.0
    ensures r == n || r >= Options.NbMaxItMin
    ensures n >= Options.NbMaxItMin ==> r >= Options.NbMaxItMin
    ensures r != n ==> r as real <= n as real / f < r as real + 1.0
    ensures n >= 0 && f >= 1.0 ==> r <= n
    ensures n as real / f >= Options.NbMaxItMin as real ==> r as real <= n as real / f < r as real + 1.0
    ensures n as real / f < Options.NbMaxItMin as real ==> r == n
  {
    var newVal := TruncToInt(n as real / f);
    DivAtMost(n as real, f);
    if newVal < Options.NbMaxItMin then n else newVal
  }

  /** Dividing a non-negative value by a factor of at least 1 does not
      make it larger. */
  lemma DivAtMost(x: real, f: real)
    requires f != 0.0
    ensures x >= 0.0 && f >= 1.0 ==> x / f <= x
  {
    if x >= 0.0 && f >= 1.0 {
      assert x / f * f == x;
      assert x / f >= 0.0;
      assert x / f * 1.0 <= x / f * f;
    }
  }

  /** The truncating conversion at a value bracketed by k and k + 1. */
  lemma TruncAt(x: real, k: int)
    requires 0 <= k && k as real <= x < k as real + 1.0
    ensures TruncToInt(x) == k
  {
  }

  /** The `y` key then the `h` key (times 1.5, then over 1.5) give back an
      even cap, and lose one from an odd cap of at least 5 (the product is
      truncated before the division). */
  lemma IncrThenReduce(n: int)
    requires n >= Options.NbMaxItMin
    ensures n % 2 == 0 ==> ReduceIt(IncrIt(n, 1.5), 1.5) == n
    ensures n % 2 == 1 ==> ReduceIt(IncrIt(n, 1.5), 1.5) == n - 1
  {
    var m := n / 2;
    if n % 2 == 0 {
      assert n as real * 1.5 == (3 * m) as real;
      TruncAt(n as real * 1.5, 3 * m);
      assert (3 * m) as real / 1.5 == n as real;
      TruncAt((3 * m) as real / 1.5, n);
    } else {
      assert n == 2 * m + 1;
      assert n as real * 1.5 == (3 * m + 1) as real + 0.5;
      TruncAt(n as real * 1.5, 3 * m + 1);
      assert (3 * m + 1) as real / 1.5 == (n - 1) as real + 2.0 / 3.0;
      TruncAt((3 * m + 1) as real / 1.5, n - 1);
    }
  }

  // ---- init nudges and the Julia switch ----

  /** The init nudge of the u/j/i/k keys. */
  const Nudge: real := 0.02

  /** The switch key: `(julia + 1) % 2` with C's remainder. */
  function Toggle(julia: int): (r: int)
    ensures julia >= 0 ==> r == 0 || r == 1
    ensures julia == 0 || julia == 1 ==> r == 1 - julia
  {
    CRem(julia + 1, 2)
  }

  /** Two presses of the switch restore a 0/1 value, and from any
      non-negative value the second press leaves the opposite of the first. */
  lemma ToggleTwice(julia: int)
    requires julia >= 0
    ensures Toggle(Toggle(julia)) == 1 - Toggle(julia)
    ensures julia <= 1 ==> Toggle(Toggle(julia)) == julia
  {
  }

  // ---- key dispatch ----

  /** The keys the window reacts to (Escape is handled by the event loop). */
  datatype Key =
    | KeyR | KeyF | KeyUp | KeyDown | KeyLeft | KeyRight
    | KeyT | KeyG | KeyY | KeyH | KeyU | KeyJ | KeyI | KeyK
    | KeySpace | KeyP | KeyOther

  /** The result of one key press: the new view, whether the surface is
      computed again, whether the palette is redrawn first, and whether the
      parameters are printed. */
  datatype KeyOutcome = KeyOutcome(view: View, refresh: bool, recolor: bool, showParams: bool)

  /** One key press. Every key but `p` and the unhandled ones ends with a
      refresh; each key changes only the parameter it is about. */
  function TreatKeyDown(v: View, k: Key, o: Options.Options): (r: KeyOutcome)
    ensures r.refresh <==> !(k == KeyP || k == KeyOther)
    ensures r.recolor <==> k == KeyF
    ensures r.showParams <==> k == KeyP
    ensures k != KeyR ==> r.view.nbMaxIt == v.nbMaxIt || k == KeyY || k == KeyH
    ensures k != KeyR && k != KeySpace ==> r.view.julia == v.julia
    ensures !(k in {KeyR, KeyU, KeyJ, KeyI, KeyK}) ==> r.view.init == v.init
    ensures !(k in {KeyR, KeyUp, KeyDown, KeyLeft, KeyRight, KeyT, KeyG}) ==> r.view.bounds == v.bounds
    ensures k == KeyR ==> r.view == Reset(o)
    ensures k in {KeyF, KeyP, KeyOther} ==> r.view == v
  {
    var b := v.bounds;
    var c := v.init;
    match k
    case KeyR => KeyOutcome(Reset(o), true, false, false)
    case KeyF => KeyOutcome(v, true, true, false)
    case KeyUp => KeyOutcome(v.(bounds := Up(b)), true, false, false)
    case KeyDown => KeyOutcome(v.(bounds := Down(b)), true, false, false)
    case KeyLeft => KeyOutcome(v.(bounds := Left(b)), true, false, false)
    case KeyRight => KeyOutcome(v.(bounds := Right(b)), true, false, false)
    case KeyT => KeyOutcome(v.(bounds := Zoom(b, 2.0)), true, false, false)
    case KeyG => KeyOutcome(v.(bounds := Unzoom(b, 2.0)), true, false, false)
    case KeyY => KeyOutcome(v.(nbMaxIt := IncrIt(v.nbMaxIt, 1.5)), true, false, false)
    case KeyH => KeyOutcome(v.(nbMaxIt := ReduceIt(v.nbMaxIt, 1.5)), true, false, false)
    case KeyU => KeyOutcome(v.(init := c.(re := c.re + Nudge)), true, false, false)
    case KeyJ => KeyOutcome(v.(init := c.(re := c.re - Nudge)), true, false, false)
    case KeyI => KeyOutcome(v.(init := c.(im := c.im + Nudge)), true, false, false)
    case KeyK => KeyOutcome(v.(init := c.(im := c.im - Nudge)), true, false, false)
    case KeySpace => KeyOutcome(v.(julia := Toggle(v.julia)), true, false, false)
    case KeyP => KeyOutcome(v, false, false, true)
    case KeyOther => KeyOutcome(v, false, false, false)
  }

  /** The pan keys undo each other: up/down and left/right. */
  lemma PanKeysCancel(v: View, o: Options.Options)
    ensures TreatKeyDown(TreatKeyDown(v, KeyUp, o).view, KeyDown, o).view == v
    ensures TreatKeyDown(TreatKeyDown(v, KeyLeft, o).view, KeyRight, o).view == v
  {
    PansCancel(v.bounds);
  }

  /** Each key that moves the view has a partner key that moves it back:
      up/down, left/right, zoom/unzoom, u/j and i/k, and the switch pressed
      twice from a 0/1 value. */
  lemma OppositeKeysCancel(v: View, o: Options.Options)
    ensures TreatKeyDown(TreatKeyDown(v, KeyUp, o).view, KeyDown, o).view == v
    ensures TreatKeyDown(TreatKeyDown(v, KeyLeft, o).view, KeyRight, o).view == v
    ensures TreatKeyDown(TreatKeyDown(v, KeyT, o).view, KeyG, o).view == v
    ensures TreatKeyDown(TreatKeyDown(v, KeyU, o).view, KeyJ, o).view == v
    ensures TreatKeyDown(TreatKeyDown(v, KeyI, o).view, KeyK, o).view == v
    ensures v.julia == 0 || v.julia == 1 ==>
              TreatKeyDown(TreatKeyDown(v, KeySpace, o).view, KeySpace, o).view == v
  {
    PanKeysCancel(v, o);
    ZoomKeyPairCancel(v, o);
    NudgeKeysCancel(v, o);
  }

  /** The `t` key followed by `g` restores the view. */
  lemma ZoomKeyPairCancel(v: View, o: Options.Options)
    ensures TreatKeyDown(TreatKeyDown(v, KeyT, o).view, KeyG, o).view == v
  {
    ZoomKeysCancel(v.bounds);
    assert TreatKeyDown(v, KeyT, o).view == v.(bounds := Zoom(v.bounds, 2.0));
  }

  /** The init nudges u/j and i/k undo each other. */
  lemma NudgeKeysCancel(v: View, o: Options.Options)
    ensures TreatKeyDown(TreatKeyDown(v, KeyU, o).view, KeyJ, o).view == v
    ensures TreatKeyDown(TreatKeyDown(v, KeyI, o).view, KeyK, o).view == v
  {
  }

  /** The reset key forgets every earlier key: after it the view is the one
      the options describe, whatever view it was pressed in. */
  lemma ResetForgetsHistory(v1: View, v2: View, o: Options.Options)
    ensures TreatKeyDown(v1, KeyR, o).view == TreatKeyDown(v2, KeyR, o).view
  {
  }

  /** A view that starts from validated options keeps a cap of at least
      the minimum under any key. */
  lemma CapStaysAboveMinimum(v: View, k: Key, o: Options.Options)
    requires v.nbMaxIt >= Options.NbMaxItMin && Options.Valid(o)
    ensures TreatKeyDown(v, k, o).view.nbMaxIt >= Options.NbMaxItMin
  {
    if k == KeyR {
      assert o.nbMaxIt >= Options.NbMaxItMin;
    }
  }

  // ---- the event loop ----

  /** The events the window loop reacts to. */
  datatype Event = Quit | Escape | Press(key: Key) | Ignored

  /** The window loop: key presses are handled in order until a quit
      event or the escape key; returns the final view and the number of
      renders, counting the one before the first event. */
  function MainLoop(v: View, events: seq<Event>, o: Options.Options, renders: nat): (r: (View, nat))
    ensures r.1 >= renders
    ensures (forall k :: 0 <= k < |events| ==> !events[k].Press?) ==> r == (v, renders)
    decreases |events|
  {
    if events == [] then (v, renders)
    else match events[0]
      case Quit => (v, renders)
      case Escape => (v, renders)
      case Ignored => MainLoop(v, events[1..], o, renders)
      case Press(key) =>
        var out := TreatKeyDown(v, key, o);
        MainLoop(out.view, events[1..], o, if out.refresh then renders + 1 else renders)
  }

  /** Nothing after a quit or escape event has any effect. */
  lemma {:induction false} LoopStopsAtExit(v: View, events: seq<Event>, exit: Event, rest: seq<Event>,
                                           o: Options.Options, renders: nat)
    requires exit == Quit || exit == Escape
    ensures MainLoop(v, events + [exit] + rest, o, renders) == MainLoop(v, events, o, renders)
    decreases |events|
  {
    if events == [] {
      assert (events + [exit] + rest)[0] == exit;
    } else {
      assert (events + [exit] + rest)[1..] == events[1..] + [exit] + rest;
      match events[0]
      case Quit =>
      case Escape =>
      case Ignored =>
        LoopStopsAtExit(v, events[1..], exit, rest, o, renders);
      case Press(key) =>
        var out := TreatKeyDown(v, key, o);
        LoopStopsAtExit(out.view, events[1..], exit, rest, o, if out.refresh then renders + 1 else renders);
    }
  }
}
